=== FILE: README.md ===
# Game of Life engine — a Dafny model

This project models the engine of a Conway's Game of Life program, `lib/src/manager.rs`. It covers four parts:

- **The grid.** A `Map` keeps the cells as a flat, row-major buffer. Cell (x, y) lives at offset `y * width + x`. The grid has read and write accessors.
- **The simulation.** `Game::step` works on two buffers. It copies the buffer, then gives each interior cell the B3/S23 rule. The rule reads the cell's live neighbours in the old buffer: the live cells of the 3x3 block, less the centre. The new buffer then replaces the old one, and the outer ring of cells never changes. `Game::run` repeats `step`.
- **The serializer.** `Game::get_states_as_string` writes each row as text: 'x' for a live cell, '.' for a dead one. Rows are separated by "\n" and there is no final line ending.
- **The parsers.**
  - `load_from_string` reads a `<width>x<height>` header line.
  - `load_from_stringmap` splits a text into lines.
  - `load_from_stringlines` fills a fresh all-dead grid from those lines.

The modules follow that structure:

- `Grid` has the cell buffer, offsets and accessors.
- `Life` has `Game::new`, the rule, `step` and `run` as pure functions.
- `Buffered` has the loops of `step` and `run` as the source writes them. Each is proved equal to its function in `Life`.
- `Render` is the serializer.
- `Text` models Rust's `str::lines`, `str::split` and `str::len`.
- `Decimal` models `usize::from_str`.
- `Loader` has the three parsers and their correctness, error and round-trip lemmas.
- `Fixtures` has the source's unit tests as lemmas.
- `Results` has `Option` and `Result`.

A grid's width and height have the type `Usize`, the naturals up to `usize::MAX`, as the source's `usize` fields do. A game's grid is the field `grid`, because `map`, the source's name for it, is a keyword in Dafny.

Every failure of the parsers becomes a `Failure` with its own `ParseError` tag. That covers both the `Err` the source returns and the panics it raises.

| tag | source | cause |
|---|---|---|
| `EmptyInput` | `manager.rs:126` | the text has no first line |
| `BadNumber` | `manager.rs:130-131` | a header token is not a `usize` |
| `MissingHeight` | `manager.rs:131` | the header has no 'x', so `first_line_parts[1]` is out of bounds |
| `SizeOverflow` | `manager.rs:37` | `width * height` overflows a `usize` |
| `CapacityOverflow` | `manager.rs:37` | `width * height` is past `isize::MAX`, the largest capacity `vec!` accepts for one-byte cells |
| `RowLength` | `manager.rs:148` | a row's length is not the width |
| `UnknownChar` | `manager.rs:155` | a character other than 'x' and '.' |
| `RowOutOfRange` | `manager.rs:152` | a row past the height writes outside the buffer |
| `RowCount` | `manager.rs:161` | the number of rows is not the height |

Overflow is modelled as in a debug build of Rust, which panics on it.

Some operations panic on a `usize` underflow. They get that panic's condition as a precondition:

- `step` needs `height >= 1`, and also `width >= 1` once the row loop is entered.
- `get_states_as_string` needs `height >= 1`.

Some behaviours of the code are easy to miss, and the model keeps each of them:

- **Zero sizes.** The code accepts a width or height of 0, and so does the model.
- **Header form.** Further 'x'-separated parts of the header are ignored. A number may start with '+', since `usize::from_str` accepts that sign, and may have leading zeros.
- **Out-of-range access.** `get_cell` and `get_cell_mut` only check that the flat offset `y * width + x` is inside the buffer, so a column past the width silently reads a cell of the next row. `Grid.GetCell` and `Grid.SetCell` model exactly that check.
- **Row length.** The code compares `width` with `line.len()`, which counts UTF-8 bytes, not characters.
- **Row count.** Too many rows fail as well as too few: a surplus row writes outside the buffer. With a width of at least 1 the loop stops at the first row past the height, and the offset it computes there, `width * height + x`, always fits a `usize`, so `RowOutOfRange` is exact and no overflow can happen. When the width is 0, a surplus row instead fails the final row count.

## Model

| member | source | states |
|---|---|---|
| Grid.IndexInBounds | lib/src/manager.rs:19-25 | a coordinate inside the grid addresses an offset `y * width + x` inside the `width * height` buffer |
| Grid.IndexInjective | lib/src/manager.rs:19-25 | two coordinates whose columns are inside the grid share an offset only if they are the same coordinate |
| Grid.CoordinateOf | lib/src/manager.rs:19-25 | every buffer offset is the address of the in-range coordinate (offset mod width, offset div width) |
| Grid.ColumnRowOfIndex | lib/src/manager.rs:19-25 | taking the column and row of the offset of (x, y) gives (x, y) back when x is inside the width |
| Grid.IndexBijective | lib/src/manager.rs:19-25 | an offset is inside the buffer if and only if some in-range coordinate addresses it |
| Grid.GetCell | lib/src/manager.rs:19-21 | the cell stored at offset `y * width + x`, demanding only that the offset lie inside the buffer |
| Grid.Cell | lib/src/manager.rs:19-21 | the cell at an in-range coordinate of a well-formed grid is the buffer element at offset `y * width + x`, which lies inside the buffer |
| Grid.SetCell | lib/src/manager.rs:23-25 | a write through `get_cell_mut` stores the value at its offset, keeps the size and well-formedness, and leaves every other offset alone |
| Grid.SetCellFrame | lib/src/manager.rs:23-25 | after a write at an in-range column, every other in-range coordinate reads as before |
| Grid.Width | lib/src/manager.rs:27 | returns the stored width |
| Grid.Height | lib/src/manager.rs:28 | returns the stored height |
| Grid.Extensionality | lib/src/manager.rs:11-16 | two well-formed grids of one size that agree at every coordinate are the same grid |
| Life.New | lib/src/manager.rs:36-40 | a new game has the requested width and height, a buffer of `width * height` cells, and every cell dead |
| Life.NextState | lib/src/manager.rs:74-90 | a cell lives next exactly when it has three live neighbours, or it is alive with two; each of the four cases of the rule separately |
| Life.FriendCount | lib/src/manager.rs:53-72 | the live cells of the 3x3 block around an interior cell, less one when the centre is alive |
| Life.FriendsAreNeighbours | lib/src/manager.rs:53-72 | the live cells of the 3x3 block, less the centre when it is alive, are the live cells at the eight neighbour positions |
| Life.NextStates | lib/src/manager.rs:49-93 | the new buffer computed offset by offset holds, at each coordinate's offset, the rule's value for an interior cell and the old value elsewhere |
| Life.Step | lib/src/manager.rs:48-95 | one step keeps the size and validity, leaves every border cell unchanged, and gives each interior cell the rule applied to its old state and its eight old neighbours |
| Life.StepSmallIsIdentity | lib/src/manager.rs:50-51 | on a grid narrower or shorter than three cells, a step changes nothing |
| Life.Run | lib/src/manager.rs:42-46 | any number of generations keeps the size, the validity and every border cell |
| Life.RunSucc | lib/src/manager.rs:42-46 | `n + 1` generations are `n` generations followed by one step |
| Life.RunAdd | lib/src/manager.rs:42-46 | running `a` generations and then `b` is running `a + b` |
| Life.RunPeriodTwo | lib/src/manager.rs:42-46 | a game that two steps bring back returns after every even count and is one step on after every odd count |
| Buffered.CountFriends | lib/src/manager.rs:53-72 | the counting loops over the 3x3 block, with the centre discounted, give the number of live neighbours |
| Buffered.SweepRow | lib/src/manager.rs:51-92 | one pass of the column loop writes the new state of every interior cell of its row into the second buffer and leaves the rest as it found it |
| Buffered.StepBuffered | lib/src/manager.rs:48-95 | the double-buffered loops compute exactly the functional step |
| Buffered.RunOneMore | lib/src/manager.rs:43-45 | one loop iteration after `i` generations yields generation `i + 1` |
| Buffered.RunBuffered | lib/src/manager.rs:42-46 | the loop of `count` steps computes `count` generations, and no step at all when `count` is 0 |
| Render.Glyph | lib/src/manager.rs:103-106 | a live cell is written 'x' and a dead one '.'; `Loader.CellOf` reads each back |
| Render.Pushed | lib/src/manager.rs:101-109 | what the two loops push from row `y` on: each row's glyphs followed by "\n" |
| Render.PushedIsJoin | lib/src/manager.rs:101-109 | what the loops push is the row texts joined by "\n", with one more "\n" at the end |
| Render.DropFinalNewline | lib/src/manager.rs:111 | shortening the pushed text by one character leaves exactly the rows joined by "\n" |
| Render.Serialize | lib/src/manager.rs:97-113 | the text is the rows joined by "\n", of length `w * h + (h - 1)`, with the glyph of (x, y) at `y * (w + 1) + x` and a "\n" after every row but the last |
| Render.JoinLayout | lib/src/manager.rs:97-113 | rows of equal length `w` joined by "\n" put row `y` at `y * (w + 1)` and a "\n" after each row but the last |
| Text.Split | lib/src/manager.rs:129 | splitting yields at least one part and no part contains the separator |
| Text.SplitJoin | lib/src/manager.rs:129 | joining the parts with the separator gives back the split text |
| Text.SplitAt | lib/src/manager.rs:129 | a text with a separator after a separator-free prefix splits into that prefix followed by the parts of the rest |
| Text.Lines | lib/src/manager.rs:123 | no line contains a line break, and a text has no lines exactly when it is empty |
| Text.LinesCons | lib/src/manager.rs:123-124 | the first line of `line + "\n" + rest` is `line` and the others are the lines of `rest` |
| Text.LinesOfJoin | lib/src/manager.rs:137 | the lines of plain rows joined by "\n" are those rows, provided the last row is not empty |
| Text.ByteLength | lib/src/manager.rs:148 | a text is at least as many bytes long as it has characters |
| Text.ByteLengthAscii | lib/src/manager.rs:148 | an ASCII text has as many bytes as characters |
| Decimal.ParseUsize | lib/src/manager.rs:130-131 | a parsed value is a `usize` whose rendering the token spells, after an optional '+', behind some leading zeros |
| Decimal.ParseUsizeExactly | lib/src/manager.rs:130-131 | a token parses to `n` if and only if `n` fits a `usize` and the token, after an optional '+', is the rendering of `n` behind some leading zeros |
| Decimal.CanonicalDigits | lib/src/manager.rs:130-131 | a digit string without a superfluous leading zero is the rendering of its own value |
| Decimal.ZerosValue | lib/src/manager.rs:130-131 | leading zeros do not change the value of a digit string |
| Decimal.ToDecimal | lib/src/manager.rs:130-131 | the rendering of a number is a non-empty digit string without leading zero whose value is the number |
| Decimal.ParseToDecimal | lib/src/manager.rs:130-131 | parsing the rendering of a `usize` gives the number back |
| Loader.CellOf | lib/src/manager.rs:152-156 | it inverts the serializer's glyphs: a character reads as a cell exactly when it is that cell's glyph, so only 'x' and '.' are accepted |
| Loader.FillRow | lib/src/manager.rs:150-158 | the column loop of one row, which matches each character before storing it: a success keeps the buffer length; `FillRowStores` and `FillRowAccepts` state what it stores and accepts |
| Loader.FillRows | lib/src/manager.rs:146-161 | the row loop, which checks each row's byte length before filling it and the row count at the end: a success keeps the buffer length; `FillRowsStores` and `FillRowsAccepts` state what it stores and accepts |
| Loader.FillRowStores | lib/src/manager.rs:150-158 | a row of map characters that fits the buffer stores the cell of column `x` at offset `width * y + x` and changes nothing else |
| Loader.FillRowAccepts | lib/src/manager.rs:150-158 | a row the column loop gets through holds only map characters |
| Loader.FillRowsStores | lib/src/manager.rs:146-160 | well-formed rows fill the buffer so that each coordinate holds the cell its row shows |
| Loader.FillRowsAccepts | lib/src/manager.rs:146-161 | a successful row loop has read exactly `height` rows of exactly `width` map characters |
| Loader.LoadFromStringLines | lib/src/manager.rs:141-164 | a success has the requested size and a well-formed buffer; a size whose cell count overflows a `usize`, or passes the largest `Vec` capacity, fails |
| Loader.LoadFromStringMap | lib/src/manager.rs:136-139 | a success has the requested size and a well-formed buffer |
| Loader.LoadFromString | lib/src/manager.rs:122-134 | the empty text fails for want of a header, and a success came from a text with at least one line |
| Loader.LoadLinesCorrect | lib/src/manager.rs:141-164 | loading succeeds if and only if the size fits and there are exactly `height` rows of `width` map characters; then the cell at (x, y) is alive exactly when row `y` has 'x' in column `x` |
| Loader.LoadRejectsRowLength | lib/src/manager.rs:148 | after rows the loop accepts (each of `width` map characters, and inside the height unless the width is 0), a row whose byte length is not the width fails with that row and its length |
| Loader.LoadRejectsChar | lib/src/manager.rs:151-156 | after rows the loop accepts, in a row of the right byte length whose earlier characters are all 'x' or '.', the first other character fails with that character and its position; in a row past the height this holds only for column 0, since an earlier map character there is first stored outside the buffer |
| Loader.LoadRejectsSurplusRow | lib/src/manager.rs:147-156 | when the width is at least 1 and the rows up to the height are accepted, a first row past the height that has the right byte length and starts with 'x' or '.' fails by writing outside the buffer |
| Loader.SurplusOffsetFits | lib/src/manager.rs:150-152 | the offset `width * height + x` that the store computes in the first row past the height is below `usize::MAX` whenever the buffer size passed the capacity check |
| Loader.LoadRejectsRowCount | lib/src/manager.rs:161 | too few well-formed rows, or the wrong number of empty rows at width 0, fail the final row count |
| Loader.SerializeRoundTrip | lib/src/manager.rs:97-139 | loading the text of a grid at least one cell wide, at the grid's own size, gives back that grid |
| Loader.SerializedLines | lib/src/manager.rs:97-113 | the lines of a grid's text are its rows, and they are well formed |
| Loader.ZeroWidthRoundTripFails | lib/src/manager.rs:97-161 | a grid 0 cells wide and 1 tall serializes to the empty text, which loads as a row-count failure |
| Loader.FirstPart | lib/src/manager.rs:129-130 | the first 'x'-separated part of a header is its text up to the first 'x' |
| Loader.LeadingParts | lib/src/manager.rs:129-131 | the first two 'x'-separated parts of `a + "x" + b + rest` are `a` and `b` |
| Loader.HeaderParts | lib/src/manager.rs:129-131 | the first two 'x'-separated parts of a written header are the rendered width and height, whatever parts follow |
| Loader.HeaderIsPlain | lib/src/manager.rs:123-128 | a written header is a single line |
| Loader.LoadHeader | lib/src/manager.rs:122-134 | loading a header line and a body is loading the body at the header's size |
| Loader.FileRoundTrip | lib/src/manager.rs:122-134 | a grid written with its header loads back as that grid |
| Loader.LoadRejectsBadWidth | lib/src/manager.rs:130 | a first part that is not a `usize` fails with that token |
| Loader.LoadRejectsMissingHeight | lib/src/manager.rs:131 | a valid width with no 'x' after it fails for want of a height |
| Loader.LoadRejectsBadHeight | lib/src/manager.rs:131 | a valid width followed by a second part that is not a `usize` fails with that token |
| Fixtures.LoadDiagonalWithHeader | lib/src/manager.rs:211-230 | "3x3\nx..\n.x.\n..x" loads as a 3x3 grid alive exactly on its diagonal |
| Fixtures.LoadDiagonalWithoutHeader | lib/src/manager.rs:233-252 | "x..\n.x.\n..x" at size 3x3 loads as a grid alive exactly on its diagonal |
| Fixtures.BlinkerStep | lib/src/manager.rs:48-95 | one step takes the vertical blinker to the horizontal one and back |
| Fixtures.BlinkerOscillates | lib/src/manager.rs:254-281 | the vertical blinker shows the horizontal text after five generations and its own text after six |
| Fixtures.RejectsHeaderWithoutX | lib/src/manager.rs:131 | "3\n..." fails for want of a height |
| Fixtures.RejectsBadWidth | lib/src/manager.rs:130 | "ax3\n..." fails on the width token "a" |
| Fixtures.RejectsNegativeHeight | lib/src/manager.rs:131 | "3x-3\n..." fails on the height token "-3", since `usize` takes no minus sign |

## Left out

- `load_game_from_file` (`lib/src/manager.rs:116-120`) reads a file. File I/O is outside the model. Apart from the read it is `load_from_string`.
- `print_game` (`lib/src/manager.rs:166-177`) only writes to standard output.
- The console and OpenGL front ends are left out. They drive `step` from a sleep loop, a window, the keyboard and a floating-point clock.
- Error values are `ParseError` tags. The `Box<dyn Error>` values and the panic messages are not modelled, except for the position and character an unknown-character panic reports.
- Integer widths:
  - `usize` is taken to be 64 bits.
  - Overflow follows a debug build, which panics. A release build would wrap `width * height` in `Game::new`, and that is not modelled.
  - A buffer longer than `isize::MAX` cells, which `vec!` refuses with a capacity-overflow panic, is the `CapacityOverflow` failure.
  - Running out of memory for a smaller buffer is not modelled.
- Life.New: requires that `width * height` be at most `isize::MAX`, instead of modelling the overflow and capacity panics of `Game::new` as failures. The loader checks this before calling it and fails with `SizeOverflow` or `CapacityOverflow`.
- Render.Serialize: requires a height of at least 1, where the source panics on the `usize` underflow of `height - 1`. It also returns text where `Vec::<char>::with_capacity(w * h + (h - 1))` panics with a capacity overflow: a `char` takes 4 bytes, so the source fails once that capacity passes `isize::MAX / 4` characters, as for a grid 0 cells wide and 2^62 tall. The model does not bound the text length.
- Life.Step: requires `StepDefined`, where the source panics on the `usize` underflow of `height - 1`, or of `width - 1` once the row loop is entered.
- The accessor tests (`lib/src/manager.rs:185-208`) compare pointers. The model compares offsets instead.
- Older Rust versions of `str::lines` are not modelled; the model follows the current behaviour. A "\r" is dropped only directly before a "\n", so a lone "\r" at the very end of the text stays in the last line.
- Loader.SerializeRoundTrip: holds only for grids at least one cell wide. A grid 0 cells wide serializes to lines that `str::lines` does not give back, as Loader.ZeroWidthRoundTripFails shows.

=== FILE: buffered.dfy ===
/** The engine as the source writes it: nested loops over the interior, a
    3x3 counting loop per cell, and a second buffer that receives the new
    states while the old one is only read. Each method is proved to compute
    the same game as the functional definitions in `Life`.
 */
module Buffered {
  import opened Grid
  import opened Life

  /** The inner counting loops of `step`: every cell of the 3x3 block around
      (x, y) is read from the old buffer, and the centre is discounted after. */
  method CountFriends(m: Map, x: nat, y: nat) returns (friends: nat)
    requires Valid(m) && Interior(m.width, m.height, x, y)
    ensures friends == Neighbours(m, x, y)
  {
    var w := m.width;
    friends := 0;
    var y1 := y - 1;
    while y1 < y + 2
      invariant y - 1 <= y1 <= y + 2
      invariant friends ==
        (if y1 > y - 1 then RowTriple(m, x, y - 1) else 0) +
        (if y1 > y then RowTriple(m, x, y) else 0) +
        (if y1 > y + 1 then RowTriple(m, x, y + 1) else 0)
    {
      var before := friends;
      var x1 := x - 1;
      while x1 < x + 2
        invariant x - 1 <= x1 <= x + 2
        invariant friends == before +
          (if x1 > x - 1 then LiveCount(Cell(m, x - 1, y1)) else 0) +
          (if x1 > x then LiveCount(Cell(m, x, y1)) else 0) +
          (if x1 > x + 1 then LiveCount(Cell(m, x + 1, y1)) else 0)
      {
        IndexInBounds(w, m.height, x1, y1);
        if m.states[Index(w, x1, y1)] == Alive {
          friends := friends + 1;
        }
        x1 := x1 + 1;
      }
      y1 := y1 + 1;
    }
    if m.states[Index(w, x, y)] == Alive {
      friends := friends - 1;
    }
    FriendsAreNeighbours(m, x, y);
  }

  /** The cells (xx, yy) that the row-major sweep has passed before reaching (x, y). */
  predicate Visited(xx: nat, yy: nat, x: nat, y: nat) {
    yy < y || (yy == y && xx < x)
  }

  /** The second buffer `next` holds the new generation at every cell the sweep
      has passed before (x, y), and the old generation everywhere else. */
  ghost predicate SweptUpTo(m: Map, next: Map, x: nat, y: nat)
    requires Valid(m)
  {
    && Valid(next) && next.width == m.width && next.height == m.height
    && forall xx: nat, yy: nat :: InRange(m.width, m.height, xx, yy) ==>
         Cell(next, xx, yy) == if Visited(xx, yy, x, y) then Evolve(m, xx, yy) else Cell(m, xx, yy)
  }

  /** Writing the new state of (x, y) moves the sweep one cell on. */
  lemma WriteAdvances(m: Map, prev: Map, x: nat, y: nat, v: CellState)
    requires Valid(m) && InRange(m.width, m.height, x, y)
    requires SweptUpTo(m, prev, x, y) && v == Evolve(m, x, y)
    ensures Index(prev.width, x, y) < |prev.states|
    ensures SweptUpTo(m, SetCell(prev, x, y, v), x + 1, y)
  {
    IndexInBounds(m.width, m.height, x, y);
    var next := SetCell(prev, x, y, v);
    forall xx: nat, yy: nat | InRange(m.width, m.height, xx, yy)
      ensures Cell(next, xx, yy) ==
        if Visited(xx, yy, x + 1, y) then Evolve(m, xx, yy) else Cell(m, xx, yy)
    {
      if xx != x || yy != y {
        SetCellFrame(prev, x, y, v, xx, yy);
        assert Visited(xx, yy, x + 1, y) == Visited(xx, yy, x, y);
      }
    }
  }

  /** Cells the sweep skips (the border) keep their state, which is also their
      new state: the sweep may jump over them. */
  lemma SkipBorder(m: Map, next: Map, x: nat, y: nat, x2: nat, y2: nat)
    requires Valid(m) && SweptUpTo(m, next, x, y)
    requires forall xx: nat, yy: nat ::
      InRange(m.width, m.height, xx, yy) && Visited(xx, yy, x2, y2) != Visited(xx, yy, x, y) ==>
        !Interior(m.width, m.height, xx, yy)
    ensures SweptUpTo(m, next, x2, y2)
  {
    forall xx: nat, yy: nat | InRange(m.width, m.height, xx, yy)
      ensures Cell(next, xx, yy) ==
        if Visited(xx, yy, x2, y2) then Evolve(m, xx, yy) else Cell(m, xx, yy)
    {
      if Visited(xx, yy, x2, y2) != Visited(xx, yy, x, y) {
        assert Evolve(m, xx, yy) == Cell(m, xx, yy);
      }
    }
  }

  /** One pass of the column loop of `step` over row `y`. */
  method SweepRow(m: Map, y: nat, start: Map) returns (next: Map)
    requires Valid(m) && 1 <= y && y + 1 < m.height && m.width >= 1
    requires SweptUpTo(m, start, 0, y)
    ensures SweptUpTo(m, next, 0, y + 1)
  {
    var w := m.width;
    next := start;
    SkipBorder(m, next, 0, y, 1, y);
    var x := 1;
    while x < w - 1
      invariant 1 <= x && (x <= w - 1 || x == 1)
      invariant SweptUpTo(m, next, x, y)
    {
      var friends := CountFriends(m, x, y);
      IndexInBounds(w, m.height, x, y);
      var cell := m.states[Index(w, x, y)];
      FriendsAreNeighbours(m, x, y);
      WriteAdvances(m, next, x, y, NextState(cell, friends));
      next := SetCell(next, x, y, NextState(cell, friends));
      x := x + 1;
    }
    SkipBorder(m, next, x, y, 0, y + 1);
  }

  /** `Game::step` with its double buffer: `next` starts as a copy of the old
      grid, each interior cell of `next` is overwritten from counts taken in
      the old grid, and `next` replaces the old grid at the end. */
  method StepBuffered(g: Game) returns (r: Game)
    requires Valid(g.grid) && StepDefined(g.grid)
    ensures r == Step(g)
  {
    var m := g.grid;
    var h := m.height;
    var next := m;
    var y := 1;
    SkipBorder(m, next, 0, 0, 0, 1);
    while y < h - 1
      invariant 1 <= y && (y <= h - 1 || y == 1)
      invariant SweptUpTo(m, next, 0, y)
    {
      next := SweepRow(m, y, next);
      y := y + 1;
    }
    SkipBorder(m, next, 0, y, 0, h);
    r := Game(next);
    var s := Step(g);
    forall xx: nat, yy: nat | InRange(m.width, h, xx, yy)
      ensures Cell(r.grid, xx, yy) == Cell(s.grid, xx, yy)
    {
      assert Cell(s.grid, xx, yy) == Evolve(m, xx, yy);
    }
    Extensionality(r.grid, s.grid);
  }

  /** `Game::run`: a loop of `count` calls to the buffered step. */
  method RunBuffered(g: Game, count: nat) returns (r: Game)
    requires Valid(g.grid) && (count == 0 || StepDefined(g.grid))
    ensures r == Run(g, count)
    ensures count == 0 ==> r == g
  {
    r := g;
    var i := 0;
    while i < count
      invariant 0 <= i <= count
      invariant r == Run(g, i)
    {
      r := RunOneMore(g, i, r);
      i := i + 1;
    }
  }

  /** One more iteration of the loop of `run`: a buffered step after `i`
      generations gives generation `i + 1`. */
  method RunOneMore(g: Game, i: nat, r: Game) returns (next: Game)
    requires Valid(g.grid) && StepDefined(g.grid) && r == Run(g, i)
    ensures next == Run(g, i + 1)
  {
    RunSucc(g, i);
    next := StepBuffered(r);
  }
}

=== FILE: decimal.dfy ===
/** `usize::from_str` on the width and height tokens of the map header, and
    the decimal rendering it inverts. */
module Decimal {
  import opened Results
  import opened Grid

  predicate IsDigit(c: char) {
    '0' <= c <= '9'
  }

  predicate AllDigits(s: string) {
    forall k :: 0 <= k < |s| ==> IsDigit(s[k])
  }

  function DigitValue(c: char): (v: nat)
    requires IsDigit(c)
    ensures v < 10
  {
    (c as int) - ('0' as int)
  }

  function DigitChar(v: nat): (c: char)
    requires v < 10
    ensures IsDigit(c) && DigitValue(c) == v
  {
    (('0' as int) + v) as char
  }

  /** The number a string of decimal digits denotes, most significant first. */
  function DigitsValue(s: string): nat
    requires AllDigits(s)
  {
    if |s| == 0 then 0 else DigitsValue(s[..|s| - 1]) * 10 + DigitValue(s[|s| - 1])
  }

  /** The digits after an optional leading '+' sign. */
  function Unsigned(token: string): string {
    if |token| > 0 && token[0] == '+' then token[1..] else token
  }

  /** `str::parse::<usize>`: an optional '+', then one or more decimal digits
      whose value fits in a `usize`. Anything else (the empty token, a lone
      sign, a '-', any other character, a value past `usize::MAX`) fails.
      A result is a `usize` whose canonical rendering the token spells, after
      the sign, behind some leading zeros. */
  function ParseUsize(token: string): (r: Option<nat>)
    ensures r.Some? ==> r.value <= USIZE_MAX && ZeroPadded(Unsigned(token), ToDecimal(r.value))
  {
    var ds := Unsigned(token);
    if |ds| == 0 || !AllDigits(ds) then None
    else
      var v := DigitsValue(ds);
      if v <= USIZE_MAX then
        var t := StripZeros(ds);
        ZerosValue(Zeros(|ds| - |t|), t);
        CanonicalDigits(t);
        Some(v)
      else None
  }

  /** `s` is `t` behind a run of zero or more '0's. */
  predicate ZeroPadded(s: string, t: string) {
    |t| <= |s| && s == Zeros(|s| - |t|) + t
  }

  /** `n` zero digits. */
  function Zeros(n: nat): (z: string)
    ensures |z| == n && forall k :: 0 <= k < n ==> z[k] == '0'
  {
    seq(n, _ => '0')
  }

  /** A digit string without a superfluous leading zero. */
  predicate Canonical(t: string) {
    |t| > 0 && AllDigits(t) && (|t| > 1 ==> t[0] != '0')
  }

  /** The digit string `s` with its superfluous leading zeros removed. */
  function StripZeros(s: string): (t: string)
    requires |s| > 0 && AllDigits(s)
    ensures Canonical(t) && ZeroPadded(s, t)
  {
    if |s| > 1 && s[0] == '0' then StripZeros(s[1..]) else s
  }

  /** Leading zeros do not change the value of a digit string. */
  lemma {:induction false} ZerosValue(zeros: string, t: string)
    requires forall k :: 0 <= k < |zeros| ==> zeros[k] == '0'
    requires AllDigits(t)
    ensures AllDigits(zeros + t) && DigitsValue(zeros + t) == DigitsValue(t)
  {
    var s := zeros + t;
    if |t| == 0 {
      assert s == zeros;
      if |zeros| > 0 {
        ZerosValue(zeros[..|zeros| - 1], []);
        assert zeros[..|zeros| - 1] + [] == zeros[..|zeros| - 1];
      }
    } else {
      ZerosValue(zeros, t[..|t| - 1]);
      assert s[..|s| - 1] == zeros + t[..|t| - 1];
    }
  }

  /** A digit string whose first digit is not 0 has a value of at least 1. */
  lemma {:induction false} LeadingDigitValue(t: string)
    requires |t| > 0 && AllDigits(t) && t[0] != '0'
    ensures DigitsValue(t) >= 1
  {
    if |t| > 1 {
      LeadingDigitValue(t[..|t| - 1]);
    }
  }

  /** A canonical digit string is the rendering of its own value. */
  lemma {:induction false} CanonicalDigits(t: string)
    requires Canonical(t)
    ensures ToDecimal(DigitsValue(t)) == t
  {
    if |t| > 1 {
      var u := t[..|t| - 1];
      CanonicalDigits(u);
      LeadingDigitValue(u);
      assert DigitsValue(t) / 10 == DigitsValue(u);
      assert t == u + [t[|t| - 1]];
    } else {
      assert DigitChar(DigitValue(t[0])) == t[0];
    }
  }

  /** A token parses to `n` exactly when `n` is a `usize` and the token, after
      an optional '+', is the rendering of `n` behind some leading zeros. */
  lemma ParseUsizeExactly(token: string, n: nat)
    ensures ParseUsize(token) == Some(n) <==>
      n <= USIZE_MAX && ZeroPadded(Unsigned(token), ToDecimal(n))
  {
    var ds, t := Unsigned(token), ToDecimal(n);
    if n <= USIZE_MAX && ZeroPadded(ds, t) {
      ZerosValue(Zeros(|ds| - |t|), t);
    }
  }

  /** The shortest decimal rendering of `n`, as Rust's `Display` writes it. */
  function ToDecimal(n: nat): (s: string)
    ensures |s| > 0 && AllDigits(s)
    ensures DigitsValue(s) == n
    ensures |s| > 1 ==> s[0] != '0'
  {
    if n < 10 then [DigitChar(n)]
    else
      var s := ToDecimal(n / 10) + [DigitChar(n % 10)];
      assert s[..|s| - 1] == ToDecimal(n / 10);
      s
  }

  /** Parsing a rendered `usize` gives the number back. */
  lemma ParseToDecimal(n: nat)
    requires n <= USIZE_MAX
    ensures ParseUsize(ToDecimal(n)) == Some(n)
  {
    var s := ToDecimal(n);
    assert Unsigned(s) == s;
  }

  /** Digits, signs and the header separator are distinct characters, so a
      rendered number never contains an 'x'. */
  lemma DecimalHasNoX(n: nat)
    ensures forall k :: 0 <= k < |ToDecimal(n)| ==> ToDecimal(n)[k] != 'x'
  {
  }
}

=== FILE: fixtures.dfy ===
/** Concrete inputs: the maps of the source's unit tests (the 3x3 diagonal
    read with and without a header, and the vertical blinker, which turns
    horizontal after five generations and returns after six), and a few
    malformed headers with the failure each one meets.
 */
module Fixtures {
  import opened Results
  import opened Grid
  import opened Life
  import opened Text
  import opened Render
  import opened Loader

  const DiagonalRows: seq<string> := ["x..", ".x.", "..x"]
  const DiagonalText: string := "x..\n.x.\n..x"

  const VerticalRows: seq<string> := [".....", "..x..", "..x..", "..x..", "....."]
  const VerticalText: string := ".....\n..x..\n..x..\n..x..\n....."

  const HorizontalRows: seq<string> := [".....", ".....", ".xxx.", ".....", "....."]
  const HorizontalText: string := ".....\n.....\n.xxx.\n.....\n....."

  /** Text made of well-formed rows loads as the grid those rows show. */
  lemma LoadRows(rows: seq<string>, text: string, width: Usize, height: Usize) returns (m: Map)
    requires width >= 1 && width * height <= ISIZE_MAX
    requires WellFormedRows(rows, width, height)
    requires text == JoinWith(rows, '\n')
    ensures Valid(m) && m.width == width && m.height == height
    ensures LoadFromStringMap(text, width, height) == Success(Game(m))
    ensures forall x: nat, y: nat :: InRange(width, height, x, y) ==> Cell(m, x, y) == CellAt(rows, x, y)
  {
    forall y | 0 <= y < |rows|
      ensures PlainLine(rows[y])
    {
      assert RowOk(rows[y], width);
    }
    LinesOfJoin(rows);
    LoadLinesCorrect(rows, width, height);
    m := LoadFromStringMap(text, width, height).value.grid;
  }

  /** The text of a grid is the rows it shows. */
  lemma SerializeRows(m: Map, rows: seq<string>)
    requires Valid(m) && m.height >= 1 && WellFormedRows(rows, m.width, m.height)
    requires forall x: nat, y: nat :: InRange(m.width, m.height, x, y) ==> Cell(m, x, y) == CellAt(rows, x, y)
    ensures Serialize(m) == JoinWith(rows, '\n')
  {
    forall y | 0 <= y < m.height
      ensures RowTexts(m)[y] == rows[y]
    {
      assert RowOk(rows[y], m.width);
      forall x | 0 <= x < m.width
        ensures RowText(m, y)[x] == rows[y][x]
      {
        assert MapChar(rows[y][x]);
      }
      assert RowText(m, y) == rows[y];
    }
    assert RowTexts(m) == rows;
  }

  /** The diagonal map, read at size 3x3. */
  lemma DiagonalLoads() returns (m: Map)
    ensures Valid(m) && m.width == 3 && m.height == 3
    ensures LoadFromStringMap(DiagonalText, 3, 3) == Success(Game(m))
    ensures forall x: nat, y: nat :: InRange(3, 3, x, y) ==> (Cell(m, x, y) == Alive <==> x == y)
  {
    DiagonalShape();
    m := LoadRows(DiagonalRows, DiagonalText, 3, 3);
    DiagonalCells();
  }

  lemma DiagonalShape()
    ensures DiagonalText == JoinWith(DiagonalRows, '\n')
    ensures WellFormedRows(DiagonalRows, 3, 3)
  {
    assert DiagonalText == DiagonalRows[0] + "\n" + (DiagonalRows[1] + "\n" + DiagonalRows[2]);
  }

  lemma DiagonalCells()
    ensures forall x: nat, y: nat :: InRange(3, 3, x, y) ==> (CellAt(DiagonalRows, x, y) == Alive <==> x == y)
  {
    forall x: nat, y: nat | InRange(3, 3, x, y)
      ensures CellAt(DiagonalRows, x, y) == Alive <==> x == y
    {
      assert DiagonalRows[y][x] == 'x' <==> x == y;
    }
  }

  /** The header "3x3". */
  lemma HeaderThreeByThree()
    ensures Header(3, 3, "") == "3x3"
  {
    assert Decimal.ToDecimal(3) == [Decimal.DigitChar(3)] == "3";
  }

  /** `test_load_content`: "3x3\nx..\n.x.\n..x" is a 3x3 grid alive exactly
      on its diagonal. */
  lemma LoadDiagonalWithHeader()
    ensures LoadFromString("3x3\n" + DiagonalText).Success?
    ensures var m := LoadFromString("3x3\n" + DiagonalText).value.grid;
      && m.width == 3 && m.height == 3 && Valid(m)
      && forall x: nat, y: nat :: InRange(3, 3, x, y) ==> (Cell(m, x, y) == Alive <==> x == y)
  {
    var m := DiagonalLoads();
    DiagonalFile();
    LoadHeader(3, 3, "", DiagonalText);
  }

  /** The text of `test_load_content` is the header "3x3" and the diagonal rows. */
  lemma DiagonalFile()
    ensures "3x3\n" + DiagonalText == Header(3, 3, "") + "\n" + DiagonalText
  {
    HeaderThreeByThree();
    assert "3x3\n" == Header(3, 3, "") + "\n";
  }

  /** `test_load_stringmap`: the same rows without a header, at size 3x3. */
  lemma LoadDiagonalWithoutHeader()
    ensures LoadFromStringMap(DiagonalText, 3, 3).Success?
    ensures var m := LoadFromStringMap(DiagonalText, 3, 3).value.grid;
      && m.width == 3 && m.height == 3
      && forall x: nat, y: nat :: InRange(3, 3, x, y) ==> (Cell(m, x, y) == Alive <==> x == y)
  {
    var m := DiagonalLoads();
  }

  /** One generation turns a grid showing `from` into one showing `to`,
      checked cell by cell with the neighbour counts of `from`. */
  lemma BlinkerStep(a: Map, b: Map, from: seq<string>, to: seq<string>)
    requires (from, to) == (VerticalRows, HorizontalRows) || (from, to) == (HorizontalRows, VerticalRows)
    requires Valid(a) && a.width == 5 && a.height == 5
    requires Valid(b) && b.width == 5 && b.height == 5
    requires forall x: nat, y: nat :: InRange(5, 5, x, y) ==> Cell(a, x, y) == CellAt(from, x, y)
    requires forall x: nat, y: nat :: InRange(5, 5, x, y) ==> Cell(b, x, y) == CellAt(to, x, y)
    ensures Step(Game(a)) == Game(b)
  {
    var s := Step(Game(a)).grid;
    forall x: nat, y: nat | InRange(5, 5, x, y)
      ensures Cell(s, x, y) == Cell(b, x, y)
    {
      BlinkerStepAt(a, b, from, to, x, y);
    }
    Extensionality(s, b);
  }

  /** One cell of the step: border cells keep their state, interior cells follow the rule. */
  lemma BlinkerStepAt(a: Map, b: Map, from: seq<string>, to: seq<string>, x: nat, y: nat)
    requires (from, to) == (VerticalRows, HorizontalRows) || (from, to) == (HorizontalRows, VerticalRows)
    requires Valid(a) && a.width == 5 && a.height == 5
    requires Valid(b) && b.width == 5 && b.height == 5
    requires forall x: nat, y: nat :: InRange(5, 5, x, y) ==> Cell(a, x, y) == CellAt(from, x, y)
    requires forall x: nat, y: nat :: InRange(5, 5, x, y) ==> Cell(b, x, y) == CellAt(to, x, y)
    requires InRange(5, 5, x, y)
    ensures Cell(Step(Game(a)).grid, x, y) == Cell(b, x, y)
  {
    if Interior(5, 5, x, y) {
      FriendsAreNeighbours(a, x, y);
      BlinkerCell(a, from, to, x, y);
    } else {
      BlinkerBorder(from, to, x, y);
    }
  }

  /** Both blinker shapes are dead on the border. */
  lemma BlinkerBorder(from: seq<string>, to: seq<string>, x: nat, y: nat)
    requires (from, to) == (VerticalRows, HorizontalRows) || (from, to) == (HorizontalRows, VerticalRows)
    requires Border(5, 5, x, y)
    ensures CellAt(from, x, y) == Dead && CellAt(to, x, y) == Dead
  {
  }

  /** The rule at one interior cell of the blinker. */
  lemma BlinkerCell(a: Map, from: seq<string>, to: seq<string>, x: nat, y: nat)
    requires (from, to) == (VerticalRows, HorizontalRows) || (from, to) == (HorizontalRows, VerticalRows)
    requires Valid(a) && a.width == 5 && a.height == 5 && Interior(5, 5, x, y)
    requires forall x: nat, y: nat :: InRange(5, 5, x, y) ==> Cell(a, x, y) == CellAt(from, x, y)
    ensures NextState(Cell(a, x, y), FriendCount(a, x, y)) == CellAt(to, x, y)
  {
    if from == VerticalRows {
      VerticalTurns(a, x, y);
    } else {
      HorizontalTurns(a, x, y);
    }
  }

  /** A grid showing the vertical text turns horizontal at every interior cell. */
  lemma VerticalTurns(a: Map, x: nat, y: nat)
    requires Valid(a) && a.width == 5 && a.height == 5 && Interior(5, 5, x, y)
    requires forall x: nat, y: nat :: InRange(5, 5, x, y) ==> Cell(a, x, y) == CellAt(VerticalRows, x, y)
    ensures NextState(Cell(a, x, y), FriendCount(a, x, y)) == CellAt(HorizontalRows, x, y)
  {
    VerticalCells();
    HorizontalCells();
    BlockCells(a, x, y);
  }

  /** A grid showing the horizontal text turns vertical at every interior cell. */
  lemma HorizontalTurns(a: Map, x: nat, y: nat)
    requires Valid(a) && a.width == 5 && a.height == 5 && Interior(5, 5, x, y)
    requires forall x: nat, y: nat :: InRange(5, 5, x, y) ==> Cell(a, x, y) == CellAt(HorizontalRows, x, y)
    ensures NextState(Cell(a, x, y), FriendCount(a, x, y)) == CellAt(VerticalRows, x, y)
  {
    VerticalCells();
    HorizontalCells();
    BlockCells(a, x, y);
  }

  /** The nine cells of the 3x3 block around an interior cell, named so that
      the text's description of the grid applies to each. */
  lemma BlockCells(a: Map, x: nat, y: nat)
    requires Valid(a) && a.width == 5 && a.height == 5 && Interior(5, 5, x, y)
    ensures InRange(5, 5, x - 1, y - 1) && InRange(5, 5, x, y - 1) && InRange(5, 5, x + 1, y - 1)
    ensures InRange(5, 5, x - 1, y) && InRange(5, 5, x, y) && InRange(5, 5, x + 1, y)
    ensures InRange(5, 5, x - 1, y + 1) && InRange(5, 5, x, y + 1) && InRange(5, 5, x + 1, y + 1)
  {
  }

  /** The vertical blinker is alive exactly in column 2, rows 1 to 3. */
  lemma VerticalCells()
    ensures forall x: nat, y: nat :: x < 5 && y < 5 ==>
      (CellAt(VerticalRows, x, y) == Alive <==> x == 2 && 1 <= y <= 3)
  {
    forall x: nat, y: nat | x < 5 && y < 5
      ensures CellAt(VerticalRows, x, y) == Alive <==> x == 2 && 1 <= y <= 3
    {
      assert VerticalRows[y][x] == 'x' <==> x == 2 && 1 <= y <= 3;
    }
  }

  /** The horizontal blinker is alive exactly in row 2, columns 1 to 3. */
  lemma HorizontalCells()
    ensures forall x: nat, y: nat :: x < 5 && y < 5 ==>
      (CellAt(HorizontalRows, x, y) == Alive <==> y == 2 && 1 <= x <= 3)
  {
    forall x: nat, y: nat | x < 5 && y < 5
      ensures CellAt(HorizontalRows, x, y) == Alive <==> y == 2 && 1 <= x <= 3
    {
      assert HorizontalRows[y][x] == 'x' <==> y == 2 && 1 <= x <= 3;
    }
  }

  lemma BlinkerShapes()
    ensures VerticalText == JoinWith(VerticalRows, '\n')
    ensures HorizontalText == JoinWith(HorizontalRows, '\n')
    ensures WellFormedRows(VerticalRows, 5, 5) && WellFormedRows(HorizontalRows, 5, 5)
  {
    VerticalShape();
    HorizontalShape();
  }

  lemma VerticalShape()
    ensures VerticalText == JoinWith(VerticalRows, '\n')
    ensures WellFormedRows(VerticalRows, 5, 5)
  {
    var v := VerticalRows;
    assert VerticalText == v[0] + "\n" + (v[1] + "\n" + (v[2] + "\n" + (v[3] + "\n" + v[4])));
  }

  lemma HorizontalShape()
    ensures HorizontalText == JoinWith(HorizontalRows, '\n')
    ensures WellFormedRows(HorizontalRows, 5, 5)
  {
    var h := HorizontalRows;
    assert HorizontalText == h[0] + "\n" + (h[1] + "\n" + (h[2] + "\n" + (h[3] + "\n" + h[4])));
  }

  /** `test_cross`: five generations turn the vertical blinker horizontal, and
      a sixth brings back the original text. */
  lemma BlinkerOscillates()
    ensures LoadFromStringMap(VerticalText, 5, 5).Success?
    ensures var g := LoadFromStringMap(VerticalText, 5, 5).value;
      && Serialize(Run(g, 5).grid) == HorizontalText
      && Serialize(Run(g, 6).grid) == VerticalText
  {
    BlinkerShapes();
    var v := LoadRows(VerticalRows, VerticalText, 5, 5);
    var h := LoadRows(HorizontalRows, HorizontalText, 5, 5);
    BlinkerStep(v, h, VerticalRows, HorizontalRows);
    BlinkerStep(h, v, HorizontalRows, VerticalRows);
    RunPeriodTwo(Game(v), 2);
    RunPeriodTwo(Game(v), 3);
    SerializeRows(h, HorizontalRows);
    SerializeRows(v, VerticalRows);
  }

  // The three lemmas below take their text as a parameter fixed by `requires`:
  // with the literal written into the `ensures`, the verifier would unfold the
  // whole parser on it instead of using the general rejection lemmas.

  /** A header without an 'x' has a width but no height. */
  lemma RejectsHeaderWithoutX(content: string)
    requires content == "3\n..."
    ensures LoadFromString(content) == Failure(MissingHeight)
  {
    assert content == "3" + "\n" + "...";
    LoadRejectsMissingHeight("3", "...");
  }

  /** A width that is not a number. */
  lemma RejectsBadWidth(content: string)
    requires content == "ax3\n..."
    ensures LoadFromString(content) == Failure(BadNumber("a"))
  {
    assert content == "a" + "x3" + "\n" + "...";
    LoadRejectsBadWidth("a", "x3", "...");
  }

  /** A signed height: `usize` parsing does not accept a minus sign. */
  lemma RejectsNegativeHeight(content: string)
    requires content == "3x-3\n..."
    ensures LoadFromString(content) == Failure(BadNumber("-3"))
  {
    assert content == "3" + "x" + "-3" + "" + "\n" + "...";
    LoadRejectsBadHeight("3", "-3", "", "...");
  }
}

=== FILE: grid.dfy ===
/** The cell buffer of the Game of Life engine: a flat, row-major sequence of
    cells with a fixed width and height, and the coordinate accessors over it.
 */
module Grid {

  /** The largest value of Rust's `usize` on a 64-bit target. */
  const USIZE_MAX: nat := 0xFFFF_FFFF_FFFF_FFFF

  /** The largest value of `isize`, which is also the largest capacity a `Vec`
      of one-byte elements can be given. */
  const ISIZE_MAX: nat := 0x7FFF_FFFF_FFFF_FFFF

  /** Rust's `usize`: the type of a grid's width and height. */
  type Usize = n: nat | n <= USIZE_MAX

  datatype CellState = Dead | Alive

  /** The grid: `states` holds the cells row by row, `width` cells per row. */
  datatype Map = Map(states: seq<CellState>, width: Usize, height: Usize)

  /** The buffer holds exactly one cell per coordinate, and is no longer than
      a `Vec` can be. */
  predicate Valid(m: Map) {
    |m.states| == m.width * m.height && |m.states| <= ISIZE_MAX
  }

  /** Row-major flat offset of the coordinate (x, y) in a grid `width` cells wide. */
  function Index(width: nat, x: nat, y: nat): nat {
    y * width + x
  }

  /** The coordinate (x, y) is inside a `width` by `height` rectangle. */
  predicate InRange(width: nat, height: nat, x: nat, y: nat) {
    x < width && y < height
  }

  /** Every in-range coordinate addresses a cell of the buffer. */
  lemma IndexInBounds(width: nat, height: nat, x: nat, y: nat)
    requires InRange(width, height, x, y)
    ensures Index(width, x, y) < width * height
  {
    calc {
      Index(width, x, y);
      < y * width + width;
      == (y + 1) * width;
      <= { MulMonotone(y + 1, height, width); } height * width;
    }
  }

  lemma MulMonotone(a: nat, b: nat, c: nat)
    requires a <= b
    ensures a * c <= b * c
  {
  }

  /** Offsets grow with the row: any cell of an earlier row comes first. */
  lemma IndexRowOrder(width: nat, x1: nat, y1: nat, x2: nat, y2: nat)
    requires x1 < width
    ensures y1 < y2 ==> Index(width, x1, y1) < Index(width, x2, y2)
  {
    if y1 < y2 {
      calc {
        Index(width, x1, y1);
        < y1 * width + width;
        == (y1 + 1) * width;
        <= { MulMonotone(y1 + 1, y2, width); } y2 * width;
        <= Index(width, x2, y2);
      }
    }
  }

  /** Two distinct coordinates with in-range columns never share a buffer cell. */
  lemma IndexInjective(width: nat, x1: nat, y1: nat, x2: nat, y2: nat)
    requires x1 < width && x2 < width
    ensures Index(width, x1, y1) == Index(width, x2, y2) ==> x1 == x2 && y1 == y2
  {
    IndexRowOrder(width, x1, y1, x2, y2);
    IndexRowOrder(width, x2, y2, x1, y1);
  }

  /** Column of a flat offset: the inverse of `Index` in its first coordinate. */
  function Column(width: nat, i: nat): nat
    requires width > 0
  {
    i % width
  }

  /** Row of a flat offset: the inverse of `Index` in its second coordinate. */
  function Row(width: nat, i: nat): nat
    requires width > 0
  {
    i / width
  }

  /** Every buffer offset is the address of exactly the coordinate (Column, Row). */
  lemma CoordinateOf(width: nat, height: nat, i: nat)
    requires i < width * height
    ensures width > 0
    ensures InRange(width, height, Column(width, i), Row(width, i))
    ensures Index(width, Column(width, i), Row(width, i)) == i
  {
    var x, y := i % width, i / width;
    assert i == y * width + x;
    if y >= height {
      MulMonotone(height, y, width);
      assert false;
    }
  }

  /** `Index` followed by (Column, Row) gives the coordinate back. */
  lemma ColumnRowOfIndex(width: nat, x: nat, y: nat)
    requires x < width
    ensures Column(width, Index(width, x, y)) == x
    ensures Row(width, Index(width, x, y)) == y
  {
    var i := Index(width, x, y);
    var q, r := i / width, i % width;
    assert i == q * width + r;
    assert Index(width, r, q) == i;
    IndexInjective(width, x, y, r, q);
  }

  /** The buffer offsets are exactly the addresses of the in-range coordinates. */
  lemma IndexBijective(width: nat, height: nat, i: nat)
    ensures i < width * height <==>
      exists x: nat, y: nat :: InRange(width, height, x, y) && Index(width, x, y) == i
  {
    if i < width * height {
      CoordinateOf(width, height, i);
      var x, y := Column(width, i), Row(width, i);
      assert InRange(width, height, x, y) && Index(width, x, y) == i;
    }
    if exists x: nat, y: nat :: InRange(width, height, x, y) && Index(width, x, y) == i {
      var x: nat, y: nat :| InRange(width, height, x, y) && Index(width, x, y) == i;
      IndexInBounds(width, height, x, y);
    }
  }

  /** `Map::get_cell`: the cell stored at offset `y * width + x`. Like the Rust
      slice index, it demands only that the offset be inside the buffer. */
  function GetCell(m: Map, x: nat, y: nat): (c: CellState)
    requires Index(m.width, x, y) < |m.states|
  {
    m.states[Index(m.width, x, y)]
  }

  /** The cell at an in-range coordinate; the precondition that `GetCell` needs
      follows from `Valid`. */
  function Cell(m: Map, x: nat, y: nat): (c: CellState)
    requires Valid(m) && InRange(m.width, m.height, x, y)
    ensures Index(m.width, x, y) < |m.states| && c == m.states[Index(m.width, x, y)]
    ensures c == GetCell(m, x, y)
  {
    IndexInBounds(m.width, m.height, x, y);
    GetCell(m, x, y)
  }

  /** `Map::get_cell_mut` followed by a write through the returned reference:
      exactly the addressed cell changes. */
  function SetCell(m: Map, x: nat, y: nat, c: CellState): (r: Map)
    requires Index(m.width, x, y) < |m.states|
    ensures r.width == m.width && r.height == m.height && |r.states| == |m.states|
    ensures Valid(m) ==> Valid(r)
    ensures GetCell(r, x, y) == c
    ensures forall i :: 0 <= i < |m.states| && i != Index(m.width, x, y) ==> r.states[i] == m.states[i]
  {
    m.(states := m.states[Index(m.width, x, y) := c])
  }

  /** Writing a cell whose column is in range leaves every other in-range
      coordinate untouched. (An out-of-range column is not rejected by the
      accessor: it aliases a cell of a later row.) */
  lemma SetCellFrame(m: Map, x: nat, y: nat, c: CellState, x2: nat, y2: nat)
    requires Valid(m) && Index(m.width, x, y) < |m.states| && x < m.width
    requires InRange(m.width, m.height, x2, y2)
    requires x2 != x || y2 != y
    ensures Cell(SetCell(m, x, y, c), x2, y2) == Cell(m, x2, y2)
  {
    var i, j := Index(m.width, x, y), Index(m.width, x2, y2);
    IndexInBounds(m.width, m.height, x2, y2);
    IndexInjective(m.width, x, y, x2, y2);
    assert i != j;
    var r := SetCell(m, x, y, c);
    assert Valid(r);
    assert r.states[j] == m.states[j];
  }

  /** `Map::get_width`. */
  function Width(m: Map): nat {
    m.width
  }

  /** `Map::get_height`. */
  function Height(m: Map): nat {
    m.height
  }

  /** Two valid grids of the same size that agree at every coordinate are equal. */
  lemma Extensionality(a: Map, b: Map)
    requires Valid(a) && Valid(b) && a.width == b.width && a.height == b.height
    requires forall x: nat, y: nat :: InRange(a.width, a.height, x, y) ==> Cell(a, x, y) == Cell(b, x, y)
    ensures a == b
  {
    forall i | 0 <= i < |a.states|
      ensures a.states[i] == b.states[i]
    {
      CoordinateOf(a.width, a.height, i);
      var x, y := Column(a.width, i), Row(a.width, i);
      assert Cell(a, x, y) == Cell(b, x, y);
    }
  }
}

=== FILE: life.dfy ===
/** The simulation engine: a game owns one grid and advances it one generation
    at a time under the B3/S23 rule, evaluating only the interior cells and
    carrying the outer ring over unchanged.
 */
module Life {
  import opened Grid

  datatype Game = Game(grid: Map)

  /** `Game::new`: a `width` by `height` grid with every cell dead. The buffer
      length `width * height` is a `usize` product, which must not overflow,
      and `vec!` refuses a capacity past `isize::MAX`. */
  function New(width: Usize, height: Usize): (g: Game)
    requires width * height <= ISIZE_MAX
    ensures Valid(g.grid) && g.grid.width == width && g.grid.height == height
    ensures |g.grid.states| == width * height
    ensures forall x: nat, y: nat :: InRange(width, height, x, y) ==> Cell(g.grid, x, y) == Dead
  {
    Game(Map(seq(width * height, _ => Dead), width, height))
  }

  /** 1 for a live cell, 0 for a dead one. */
  function LiveCount(c: CellState): nat {
    if c == Alive then 1 else 0
  }

  /** A cell whose whole 3x3 block lies inside the grid: exactly the cells that
      `step` visits, rows 1 ..= height-2 and columns 1 ..= width-2. */
  predicate Interior(width: nat, height: nat, x: nat, y: nat) {
    1 <= x && x + 1 < width && 1 <= y && y + 1 < height
  }

  /** A cell on the outermost ring, which `step` never evaluates. */
  predicate Border(width: nat, height: nat, x: nat, y: nat) {
    InRange(width, height, x, y) && !Interior(width, height, x, y)
  }

  /** Live cells among the three cells of row `y1` in columns x-1 ..= x+1. */
  function RowTriple(m: Map, x: nat, y1: nat): nat
    requires Valid(m) && 1 <= x && x + 1 < m.width && y1 < m.height
  {
    LiveCount(Cell(m, x - 1, y1)) + LiveCount(Cell(m, x, y1)) + LiveCount(Cell(m, x + 1, y1))
  }

  /** `alive_friends` as `step` computes it: the live cells of the whole 3x3
      block, less one when the centre cell itself is alive. */
  function FriendCount(m: Map, x: nat, y: nat): nat
    requires Valid(m) && Interior(m.width, m.height, x, y)
  {
    var block := RowTriple(m, x, y - 1) + RowTriple(m, x, y) + RowTriple(m, x, y + 1);
    if Cell(m, x, y) == Alive then block - 1 else block
  }

  /** The eight relative positions of a cell's neighbours. */
  const NeighbourOffsets: seq<(int, int)> :=
    [(-1, -1), (0, -1), (1, -1), (-1, 0), (1, 0), (-1, 1), (0, 1), (1, 1)]

  /** Live cells at the given offsets from (x, y), each of which lands inside the grid. */
  function LiveAt(m: Map, x: nat, y: nat, offsets: seq<(int, int)>): (n: nat)
    requires Valid(m)
    requires forall k :: 0 <= k < |offsets| ==>
      0 <= x + offsets[k].0 < m.width && 0 <= y + offsets[k].1 < m.height
    ensures n <= |offsets|
  {
    if |offsets| == 0 then 0
    else
      LiveCount(Cell(m, x + offsets[0].0, y + offsets[0].1)) + LiveAt(m, x, y, offsets[1..])
  }

  /** The number of live neighbours of an interior cell, counted over the eight
      surrounding positions. This is the reference the engine is checked against. */
  function Neighbours(m: Map, x: nat, y: nat): (n: nat)
    requires Valid(m) && Interior(m.width, m.height, x, y)
    ensures n <= 8
  {
    LiveAt(m, x, y, NeighbourOffsets)
  }

  /** Counting the block and discounting the centre is counting the eight neighbours. */
  lemma FriendsAreNeighbours(m: Map, x: nat, y: nat)
    requires Valid(m) && Interior(m.width, m.height, x, y)
    ensures FriendCount(m, x, y) == Neighbours(m, x, y)
  {
    NeighboursAbove(m, x, y);
    NeighboursBeside(m, x, y);
    NeighboursBelow(m, x, y);
  }

  /** The first three offsets are the row above. */
  lemma NeighboursAbove(m: Map, x: nat, y: nat)
    requires Valid(m) && Interior(m.width, m.height, x, y)
    ensures LiveAt(m, x, y, NeighbourOffsets) == RowTriple(m, x, y - 1) + LiveAt(m, x, y, NeighbourOffsets[3..])
  {
    var o := NeighbourOffsets;
    assert LiveAt(m, x, y, o[2..]) == LiveCount(Cell(m, x + 1, y - 1)) + LiveAt(m, x, y, o[3..]);
    assert LiveAt(m, x, y, o[1..]) == LiveCount(Cell(m, x, y - 1)) + LiveAt(m, x, y, o[2..]);
  }

  /** The next two offsets are the cells to the left and to the right. */
  lemma NeighboursBeside(m: Map, x: nat, y: nat)
    requires Valid(m) && Interior(m.width, m.height, x, y)
    ensures LiveAt(m, x, y, NeighbourOffsets[3..]) ==
      LiveCount(Cell(m, x - 1, y)) + LiveCount(Cell(m, x + 1, y)) + LiveAt(m, x, y, NeighbourOffsets[5..])
  {
    var o := NeighbourOffsets;
    assert LiveAt(m, x, y, o[4..]) == LiveCount(Cell(m, x + 1, y)) + LiveAt(m, x, y, o[5..]);
  }

  /** The last three offsets are the row below. */
  lemma NeighboursBelow(m: Map, x: nat, y: nat)
    requires Valid(m) && Interior(m.width, m.height, x, y)
    ensures LiveAt(m, x, y, NeighbourOffsets[5..]) == RowTriple(m, x, y + 1)
  {
    var o := NeighbourOffsets;
    assert LiveAt(m, x, y, o[8..]) == 0;
    assert LiveAt(m, x, y, o[7..]) == LiveCount(Cell(m, x + 1, y + 1));
    assert LiveAt(m, x, y, o[6..]) == LiveCount(Cell(m, x, y + 1)) + LiveAt(m, x, y, o[7..]);
  }

  /** The rule of `step`, written as the source's match on the cell and its
      count of live neighbours. It is B3/S23: a cell is alive next generation
      exactly when it has three live neighbours, or it is alive and has two. */
  function NextState(c: CellState, friends: nat): (r: CellState)
    ensures r == Alive <==> friends == 3 || (c == Alive && friends == 2)
    ensures c == Alive && friends < 2 ==> r == Dead
    ensures c == Alive && (friends == 2 || friends == 3) ==> r == Alive
    ensures c == Alive && friends > 3 ==> r == Dead
    ensures c == Dead && friends == 3 ==> r == Alive
    ensures c == Dead && friends != 3 ==> r == Dead
  {
    match c
    case Alive =>
      if friends == 0 || friends == 1 then Dead
      else if friends == 2 || friends == 3 then Alive
      else Dead
    case Dead =>
      if friends == 3 then Alive else Dead
  }

  /** `step` subtracts `1` from `height` and, when the row loop is entered, from
      `width`, both of type `usize`: it panics unless these do not underflow. */
  predicate StepDefined(m: Map) {
    m.height >= 1 && (m.height <= 2 || m.width >= 1)
  }

  /** The new state of (x, y): the rule for an interior cell, the old state otherwise. */
  function Evolve(m: Map, x: nat, y: nat): CellState
    requires Valid(m) && InRange(m.width, m.height, x, y)
  {
    if Interior(m.width, m.height, x, y) then NextState(Cell(m, x, y), FriendCount(m, x, y))
    else Cell(m, x, y)
  }

  /** The next buffer, every cell computed from the unchanged snapshot `m`. */
  function NextStates(m: Map): (s: seq<CellState>)
    requires Valid(m)
    ensures |s| == |m.states|
    ensures forall x: nat, y: nat :: InRange(m.width, m.height, x, y) ==>
      Index(m.width, x, y) < |s| && s[Index(m.width, x, y)] == Evolve(m, x, y)
  {
    var s := seq(|m.states|, i requires 0 <= i < |m.states| => EvolveAt(m, i));
    NextStatesAt(m, s);
    s
  }

  /** The new state of the cell at offset `i` of the buffer. */
  function EvolveAt(m: Map, i: nat): CellState
    requires Valid(m) && i < |m.states|
  {
    CoordinateOf(m.width, m.height, i);
    Evolve(m, Column(m.width, i), Row(m.width, i))
  }

  lemma NextStatesAt(m: Map, s: seq<CellState>)
    requires Valid(m) && |s| == |m.states|
    requires forall i :: 0 <= i < |s| ==> s[i] == EvolveAt(m, i)
    ensures forall x: nat, y: nat :: InRange(m.width, m.height, x, y) ==>
      Index(m.width, x, y) < |s| && s[Index(m.width, x, y)] == Evolve(m, x, y)
  {
    forall x: nat, y: nat | InRange(m.width, m.height, x, y)
      ensures Index(m.width, x, y) < |s| && s[Index(m.width, x, y)] == Evolve(m, x, y)
    {
      IndexInBounds(m.width, m.height, x, y);
      ColumnRowOfIndex(m.width, x, y);
    }
  }

  /** `Game::step`: one generation. The border keeps its state, and every
      interior cell follows the rule applied to its state and its eight
      neighbours in the old generation. */
  function Step(g: Game): (r: Game)
    requires Valid(g.grid) && StepDefined(g.grid)
    ensures Valid(r.grid) && StepDefined(r.grid)
    ensures r.grid.width == g.grid.width && r.grid.height == g.grid.height
    ensures |r.grid.states| == |g.grid.states|
    ensures forall x: nat, y: nat :: Border(g.grid.width, g.grid.height, x, y) ==>
      Cell(r.grid, x, y) == Cell(g.grid, x, y)
    ensures forall x: nat, y: nat :: Interior(g.grid.width, g.grid.height, x, y) ==>
      Cell(r.grid, x, y) == NextState(Cell(g.grid, x, y), Neighbours(g.grid, x, y))
  {
    var r := Game(g.grid.(states := NextStates(g.grid)));
    StepCells(g.grid, r.grid);
    r
  }

  lemma StepCells(m: Map, n: Map)
    requires Valid(m) && n == m.(states := NextStates(m))
    ensures Valid(n)
    ensures forall x: nat, y: nat :: Border(m.width, m.height, x, y) ==> Cell(n, x, y) == Cell(m, x, y)
    ensures forall x: nat, y: nat :: Interior(m.width, m.height, x, y) ==>
      Cell(n, x, y) == NextState(Cell(m, x, y), Neighbours(m, x, y))
  {
    forall x: nat, y: nat | Interior(m.width, m.height, x, y)
      ensures Cell(n, x, y) == NextState(Cell(m, x, y), Neighbours(m, x, y))
    {
      FriendsAreNeighbours(m, x, y);
    }
  }

  /** With fewer than three rows or columns there is no interior: `step` changes nothing. */
  lemma StepSmallIsIdentity(g: Game)
    requires Valid(g.grid) && StepDefined(g.grid)
    requires g.grid.width < 3 || g.grid.height < 3
    ensures Step(g) == g
  {
    var r := Step(g);
    forall x: nat, y: nat | InRange(g.grid.width, g.grid.height, x, y)
      ensures Cell(r.grid, x, y) == Cell(g.grid, x, y)
    {
      assert Border(g.grid.width, g.grid.height, x, y);
    }
    Extensionality(r.grid, g.grid);
  }

  /** `Game::run`: `count` generations, one `step` after another. No step is
      taken when `count` is 0, so only a positive count needs `step`'s precondition. */
  function Run(g: Game, count: nat): (r: Game)
    requires Valid(g.grid) && (count == 0 || StepDefined(g.grid))
    ensures Valid(r.grid)
    ensures r.grid.width == g.grid.width && r.grid.height == g.grid.height
    ensures forall x: nat, y: nat :: Border(g.grid.width, g.grid.height, x, y) ==>
      Cell(r.grid, x, y) == Cell(g.grid, x, y)
    decreases count
  {
    if count == 0 then g else Run(Step(g), count - 1)
  }

  /** `run(n + 1)` is `run(n)` followed by one more `step`. */
  lemma {:induction false} RunSucc(g: Game, n: nat)
    requires Valid(g.grid) && StepDefined(g.grid)
    ensures Run(g, n + 1) == Step(Run(g, n))
    decreases n
  {
    if n > 0 {
      RunSucc(Step(g), n - 1);
    }
  }

  /** Running `a` then `b` generations is running `a + b`. */
  lemma {:induction false} RunAdd(g: Game, a: nat, b: nat)
    requires Valid(g.grid) && StepDefined(g.grid)
    ensures Run(Run(g, a), b) == Run(g, a + b)
    decreases a
  {
    if a > 0 {
      RunAdd(Step(g), a - 1, b);
    }
  }

  /** A game that `step` returns to after two generations (an oscillator of
      period 1 or 2) is back after every even number and at its successor
      after every odd number. */
  lemma {:induction false} RunPeriodTwo(g: Game, k: nat)
    requires Valid(g.grid) && StepDefined(g.grid)
    requires Step(Step(g)) == g
    ensures Run(g, 2 * k) == g
    ensures Run(g, 2 * k + 1) == Step(g)
    decreases k
  {
    if k > 0 {
      RunPeriodTwo(g, k - 1);
      calc {
        Run(g, 2 * k);
        Run(Step(g), 2 * k - 1);
        Run(Step(Step(g)), 2 * k - 2);
        { assert 2 * k - 2 == 2 * (k - 1); }
        Run(g, 2 * (k - 1));
        g;
      }
    }
    assert Run(g, 2 * k + 1) == Run(Step(g), 2 * k);
    RunSucc(g, 2 * k);
  }
}

=== FILE: loader.dfy ===
/** The map parsers: `load_from_stringlines` fills a fresh all-dead grid row
    by row from text lines, `load_from_stringmap` feeds it the lines of a
    string, and `load_from_string` first reads a `<width>x<height>` header.
    Every way the source can fail, whether by returning an error or by
    panicking, is a `Failure` here with its own tag.
 */
module Loader {
  import opened Results
  import opened Grid
  import opened Life
  import opened Text
  import opened Decimal
  import opened Render

  datatype ParseError =
    | EmptyInput                              // the text has no first line
    | BadNumber(token: string)                // a header token is not a `usize`
    | MissingHeight                           // the header has no 'x'
    | SizeOverflow                            // width * height overflows a `usize`
    | CapacityOverflow                        // width * height is past the largest `Vec` capacity
    | RowLength(row: nat, length: nat)        // a row's byte length is not the width
    | UnknownChar(c: char, x: nat, y: nat)    // a character other than 'x' and '.'
    | RowOutOfRange(row: nat)                 // a row past the height writes outside the buffer
    | RowCount(rows: nat)                     // the number of rows is not the height

  /** The characters a map row may hold. */
  predicate MapChar(c: char) {
    c == 'x' || c == '.'
  }

  /** The cell a map character stands for; any other character has none.
      It inverts `Glyph`: the map characters are exactly the glyphs, and each
      reads back as the cell it was written for. */
  function CellOf(c: char): (r: Option<CellState>)
    ensures r.Some? <==> MapChar(c)
    ensures forall s :: r == Some(s) <==> Glyph(s) == c
  {
    if c == 'x' then Some(Alive)
    else if c == '.' then Some(Dead)
    else None
  }

  /** The column loop of `load_from_stringlines` for row `y`, from column `x`
      on. Each character is matched first and only then stored at
      `width * y + x`, as in Rust, where the right-hand side of an assignment
      is evaluated before its place: a bad character is reported even in a
      row past the end of the buffer. */
  function FillRow(line: string, width: nat, y: nat, x: nat, states: seq<CellState>)
    : (r: Result<seq<CellState>, ParseError>)
    requires x <= |line|
    ensures r.Success? ==> |r.value| == |states|
    decreases |line| - x
  {
    if x == |line| then Success(states)
    else
      match CellOf(line[x])
      case None => Failure(UnknownChar(line[x], x, y))
      case Some(c) =>
        if Index(width, x, y) >= |states| then Failure(RowOutOfRange(y))
        else FillRow(line, width, y, x + 1, states[Index(width, x, y) := c])
  }

  /** The row loop of `load_from_stringlines`, from row `y` on: each row must
      be `width` bytes long, and when the lines run out exactly `height` rows
      must have been read. */
  function FillRows(lines: seq<string>, width: nat, height: nat, y: nat, states: seq<CellState>)
    : (r: Result<seq<CellState>, ParseError>)
    requires y <= |lines|
    ensures r.Success? ==> |r.value| == |states|
    decreases |lines| - y
  {
    if y == |lines| then
      if y == height then Success(states) else Failure(RowCount(y))
    else if ByteLength(lines[y]) != width then Failure(RowLength(y, ByteLength(lines[y])))
    else
      match FillRow(lines[y], width, y, 0, states)
      case Failure(e) => Failure(e)
      case Success(next) => FillRows(lines, width, height, y + 1, next)
  }

  /** `load_from_stringlines`: a new all-dead game of the given size, filled
      from the lines. */
  function LoadFromStringLines(lines: seq<string>, width: Usize, height: Usize): (r: Result<Game, ParseError>)
    ensures r.Success? ==> Valid(r.value.grid) && r.value.grid.width == width && r.value.grid.height == height
    ensures width * height > USIZE_MAX ==> r == Failure(SizeOverflow)
    ensures USIZE_MAX >= width * height > ISIZE_MAX ==> r == Failure(CapacityOverflow)
  {
    if width * height > USIZE_MAX then Failure(SizeOverflow)
    else if width * height > ISIZE_MAX then Failure(CapacityOverflow)
    else
      var g := New(width, height);
      match FillRows(lines, width, height, 0, g.grid.states)
      case Failure(e) => Failure(e)
      case Success(states) => Success(Game(Map(states, width, height)))
  }

  /** `load_from_stringmap`: the lines of `content` as a `width` by `height` map. */
  function LoadFromStringMap(content: string, width: Usize, height: Usize): (r: Result<Game, ParseError>)
    ensures r.Success? ==> Valid(r.value.grid) && r.value.grid.width == width && r.value.grid.height == height
  {
    LoadFromStringLines(Lines(content), width, height)
  }

  /** `load_from_string`: the first line is split at every 'x'; the first two
      parts are the width and the height, any further parts are ignored, and
      the remaining lines are the map. */
  function LoadFromString(content: string): (r: Result<Game, ParseError>)
    ensures content == "" ==> r == Failure(EmptyInput)
    ensures r.Success? ==> Valid(r.value.grid) && |Lines(content)| >= 1
  {
    var lines := Lines(content);
    if |lines| == 0 then Failure(EmptyInput)
    else
      var parts := Split(lines[0], 'x');
      match ParseUsize(parts[0])
      case None => Failure(BadNumber(parts[0]))
      case Some(width) =>
        if |parts| < 2 then Failure(MissingHeight)
        else
          match ParseUsize(parts[1])
          case None => Failure(BadNumber(parts[1]))
          case Some(height) => LoadFromStringLines(lines[1..], width, height)
  }

  // ---------------------------------------------------------------------------
  // What a well-formed map is, independently of the loops that read it.

  /** A row of exactly `width` map characters. */
  predicate RowOk(line: string, width: nat) {
    |line| == width && forall x :: 0 <= x < |line| ==> MapChar(line[x])
  }

  /** Exactly `height` rows, each of exactly `width` map characters. */
  predicate WellFormedRows(lines: seq<string>, width: nat, height: nat) {
    |lines| == height && forall y :: 0 <= y < |lines| ==> RowOk(lines[y], width)
  }

  /** The cell a map shows at (x, y): alive exactly where there is an 'x'. */
  function CellAt(lines: seq<string>, x: nat, y: nat): CellState {
    if y < |lines| && x < |lines[y]| && lines[y][x] == 'x' then Alive else Dead
  }

  /** A row of map characters is as long in bytes as in characters. */
  lemma RowOkBytes(line: string, width: nat)
    requires RowOk(line, width)
    ensures ByteLength(line) == width
  {
    ByteLengthAscii(line);
  }

  // ---------------------------------------------------------------------------
  // The column loop.

  /** A row of map characters whose cells all fit in the buffer is stored at
      offsets `width * y + x` and nothing else changes. */
  lemma {:induction false} FillRowStores(line: string, width: nat, y: nat, x: nat, states: seq<CellState>)
    requires x <= |line|
    requires forall k :: x <= k < |line| ==> MapChar(line[k])
    requires Index(width, 0, y) + |line| <= |states|
    ensures FillRow(line, width, y, x, states).Success?
    ensures var t := FillRow(line, width, y, x, states).value;
      forall i :: 0 <= i < |t| ==>
        t[i] == if Index(width, x, y) <= i < Index(width, 0, y) + |line|
                then CellAt([line], i - Index(width, 0, y), 0) else states[i]
    decreases |line| - x
  {
    if x < |line| {
      var next := states[Index(width, x, y) := CellOf(line[x]).value];
      FillRowStores(line, width, y, x + 1, next);
    }
  }

  /** A successful column loop saw only map characters. */
  lemma {:induction false} FillRowAccepts(line: string, width: nat, y: nat, x: nat, states: seq<CellState>)
    requires x <= |line|
    requires FillRow(line, width, y, x, states).Success?
    ensures forall k :: x <= k < |line| ==> MapChar(line[k])
    decreases |line| - x
  {
    if x < |line| {
      FillRowAccepts(line, width, y, x + 1, states[Index(width, x, y) := CellOf(line[x]).value]);
    }
  }

  /** The column loop gets through a prefix of map characters whose cells fit. */
  lemma {:induction false} FillRowSkip(line: string, width: nat, y: nat, x0: nat, x: nat, states: seq<CellState>)
    returns (next: seq<CellState>)
    requires x0 <= x <= |line|
    requires forall k :: x0 <= k < x ==> MapChar(line[k])
    requires Index(width, 0, y) + x <= |states|
    ensures |next| == |states|
    ensures FillRow(line, width, y, x0, states) == FillRow(line, width, y, x, next)
    decreases x - x0
  {
    if x0 == x {
      next := states;
    } else {
      next := FillRowSkip(line, width, y, x0 + 1, x, states[Index(width, x0, y) := CellOf(line[x0]).value]);
    }
  }

  // ---------------------------------------------------------------------------
  // The row loop.

  /** Well-formed rows from `y` to the end fill the rest of the buffer, row
      `yy` at offsets `width * yy ..`, and the rows before `y` are untouched. */
  lemma {:induction false} FillRowsStores(lines: seq<string>, width: nat, height: nat, y: nat, states: seq<CellState>)
    requires |lines| == height && y <= height && |states| == width * height
    requires forall yy :: y <= yy < height ==> RowOk(lines[yy], width)
    ensures FillRows(lines, width, height, y, states).Success?
    ensures var t := FillRows(lines, width, height, y, states).value;
      forall xx: nat, yy: nat :: InRange(width, height, xx, yy) ==>
        Index(width, xx, yy) < |t| &&
        t[Index(width, xx, yy)] == if yy >= y then CellAt(lines, xx, yy) else states[Index(width, xx, yy)]
    decreases height - y
  {
    if y < height {
      var line := lines[y];
      RowOkBytes(line, width);
      if width > 0 {
        IndexInBounds(width, height, width - 1, y);
      }
      FillRowStores(line, width, y, 0, states);
      var next := FillRow(line, width, y, 0, states).value;
      FillRowsStores(lines, width, height, y + 1, next);
      var t := FillRows(lines, width, height, y + 1, next).value;
      forall xx: nat, yy: nat | InRange(width, height, xx, yy)
        ensures Index(width, xx, yy) < |t|
        ensures t[Index(width, xx, yy)] ==
          if yy >= y then CellAt(lines, xx, yy) else states[Index(width, xx, yy)]
      {
        IndexInBounds(width, height, xx, yy);
        IndexRowOrder(width, xx, yy, 0, y);
        if yy == y {
          assert CellAt([line], xx, 0) == CellAt(lines, xx, yy);
        }
      }
    } else {
      forall xx: nat, yy: nat | InRange(width, height, xx, yy)
        ensures Index(width, xx, yy) < |states|
      {
        IndexInBounds(width, height, xx, yy);
      }
    }
  }

  /** A successful row loop read exactly `height` rows of `width` map characters. */
  lemma {:induction false} FillRowsAccepts(lines: seq<string>, width: nat, height: nat, y: nat, states: seq<CellState>)
    requires y <= |lines|
    requires FillRows(lines, width, height, y, states).Success?
    ensures |lines| == height
    ensures forall yy :: y <= yy < |lines| ==> RowOk(lines[yy], width)
    decreases |lines| - y
  {
    if y < |lines| {
      var line := lines[y];
      FillRowAccepts(line, width, y, 0, states);
      ByteLengthAscii(line);
      FillRowsAccepts(lines, width, height, y + 1, FillRow(line, width, y, 0, states).value);
    }
  }

  /** Rows the loop gets through: well-formed, and inside the buffer unless
      they are empty. */
  predicate AcceptedRows(lines: seq<string>, width: nat, height: nat, y: nat)
    requires y <= |lines|
  {
    forall yy :: 0 <= yy < y ==> RowOk(lines[yy], width) && (width == 0 || yy < height)
  }

  /** The row loop gets through a prefix of accepted rows. */
  lemma {:induction false} FillRowsSkip(lines: seq<string>, width: nat, height: nat, y0: nat, y: nat, states: seq<CellState>)
    returns (next: seq<CellState>)
    requires y0 <= y <= |lines| && |states| == width * height
    requires AcceptedRows(lines, width, height, y)
    ensures |next| == |states|
    ensures FillRows(lines, width, height, y0, states) == FillRows(lines, width, height, y, next)
    decreases y - y0
  {
    if y0 == y {
      next := states;
    } else {
      var line := lines[y0];
      RowOkBytes(line, width);
      if width > 0 {
        IndexInBounds(width, height, width - 1, y0);
      }
      FillRowStores(line, width, y0, 0, states);
      next := FillRowsSkip(lines, width, height, y0 + 1, y, FillRow(line, width, y0, 0, states).value);
    }
  }

  // ---------------------------------------------------------------------------
  // What the parser accepts, what it builds, and how it fails.

  /** The parser succeeds exactly on `height` rows of `width` map characters
      (when the buffer size is one a `Vec` can have), and then the cell at (x, y) is
      alive exactly when row `y` has an 'x' in column `x`. */
  lemma LoadLinesCorrect(lines: seq<string>, width: Usize, height: Usize)
    ensures LoadFromStringLines(lines, width, height).Success? <==>
      width * height <= ISIZE_MAX && WellFormedRows(lines, width, height)
    ensures LoadFromStringLines(lines, width, height).Success? ==>
      var m := LoadFromStringLines(lines, width, height).value.grid;
      && Valid(m) && m.width == width && m.height == height
      && forall x: nat, y: nat :: InRange(width, height, x, y) ==>
           (Cell(m, x, y) == Alive <==> lines[y][x] == 'x')
  {
    if width * height <= ISIZE_MAX {
      var states := New(width, height).grid.states;
      if FillRows(lines, width, height, 0, states).Success? {
        FillRowsAccepts(lines, width, height, 0, states);
      }
      if WellFormedRows(lines, width, height) {
        FillRowsStores(lines, width, height, 0, states);
      }
    }
  }

  /** A row whose byte length is not the width fails at that row, once the
      rows before it have been read. */
  lemma LoadRejectsRowLength(lines: seq<string>, width: Usize, height: Usize, y: nat)
    requires width * height <= ISIZE_MAX && y < |lines|
    requires AcceptedRows(lines, width, height, y)
    requires ByteLength(lines[y]) != width
    ensures LoadFromStringLines(lines, width, height) == Failure(RowLength(y, ByteLength(lines[y])))
  {
    var states := New(width, height).grid.states;
    var next := FillRowsSkip(lines, width, height, 0, y, states);
  }

  /** The first character other than 'x' and '.' fails with its position. */
  lemma LoadRejectsChar(lines: seq<string>, width: Usize, height: Usize, x: nat, y: nat)
    requires width * height <= ISIZE_MAX && y < |lines| && x < |lines[y]|
    requires AcceptedRows(lines, width, height, y)
    requires ByteLength(lines[y]) == width
    requires forall k :: 0 <= k < x ==> MapChar(lines[y][k])
    requires !MapChar(lines[y][x])
    requires y < height || x == 0
    ensures LoadFromStringLines(lines, width, height) == Failure(UnknownChar(lines[y][x], x, y))
  {
    var states := New(width, height).grid.states;
    var next := FillRowsSkip(lines, width, height, 0, y, states);
    if x > 0 {
      IndexInBounds(width, height, x - 1, y);
      var inRow := FillRowSkip(lines[y], width, y, 0, x, next);
    }
  }

  /** A row beyond the height whose first character is a map character is
      written outside the buffer. */
  lemma LoadRejectsSurplusRow(lines: seq<string>, width: Usize, height: Usize)
    requires width * height <= ISIZE_MAX && height < |lines| && width >= 1
    requires AcceptedRows(lines, width, height, height)
    requires ByteLength(lines[height]) == width
    requires MapChar(lines[height][0])
    ensures LoadFromStringLines(lines, width, height) == Failure(RowOutOfRange(height))
  {
    var states := New(width, height).grid.states;
    var next := FillRowsSkip(lines, width, height, 0, height, states);
    assert Index(width, 0, height) == width * height;
  }

  /** Well-formed rows of the wrong number fail the final count check. A
      surplus row reaches that check only when the width is 0. */
  lemma LoadRejectsRowCount(lines: seq<string>, width: Usize, height: Usize)
    requires width * height <= ISIZE_MAX
    requires forall y :: 0 <= y < |lines| ==> RowOk(lines[y], width)
    requires |lines| < height || (width == 0 && |lines| != height)
    ensures LoadFromStringLines(lines, width, height) == Failure(RowCount(|lines|))
  {
    var states := New(width, height).grid.states;
    var next := FillRowsSkip(lines, width, height, 0, |lines|, states);
  }

  // ---------------------------------------------------------------------------
  // Round trips with the serializer.

  /** Parsing the text of a grid at the grid's own size rebuilds the grid,
      provided it is at least one cell wide. */
  lemma SerializeRoundTrip(m: Map)
    requires Valid(m) && m.width >= 1 && m.height >= 1
    ensures LoadFromStringMap(Serialize(m), m.width, m.height) == Success(Game(m))
  {
    var rows := RowTexts(m);
    SerializedLines(m);
    LoadLinesCorrect(rows, m.width, m.height);
    var r := LoadFromStringLines(rows, m.width, m.height).value.grid;
    SameCells(m, r);
  }

  /** The lines of a grid's text are its rows, and they are well formed. */
  lemma SerializedLines(m: Map)
    requires Valid(m) && m.width >= 1 && m.height >= 1
    ensures Lines(Serialize(m)) == RowTexts(m)
    ensures WellFormedRows(RowTexts(m), m.width, m.height)
  {
    var rows := RowTexts(m);
    forall y | 0 <= y < |rows|
      ensures PlainLine(rows[y]) && RowOk(rows[y], m.width)
    {
    }
    LinesOfJoin(rows);
  }

  /** A grid that is alive exactly where the text of `m` shows 'x' is `m`. */
  lemma SameCells(m: Map, r: Map)
    requires Valid(m) && Valid(r) && r.width == m.width && r.height == m.height
    requires forall x: nat, y: nat :: InRange(m.width, m.height, x, y) ==>
      (Cell(r, x, y) == Alive <==> RowTexts(m)[y][x] == 'x')
    ensures r == m
  {
    forall x: nat, y: nat | InRange(m.width, m.height, x, y)
      ensures Cell(r, x, y) == Cell(m, x, y)
    {
      assert RowTexts(m)[y][x] == Glyph(Cell(m, x, y));
    }
    Extensionality(r, m);
  }

  /** A grid zero cells wide does not survive the round trip: its single
      row is the empty text, which has no lines at all. */
  lemma ZeroWidthRoundTripFails()
    ensures Serialize(New(0, 1).grid) == ""
    ensures LoadFromStringMap(Serialize(New(0, 1).grid), 0, 1) == Failure(RowCount(0))
  {
    assert RowTexts(New(0, 1).grid) == [""];
  }

  /** The header `<width>x<height>`, optionally followed by further 'x'-separated
      parts that are ignored. */
  function Header(width: nat, height: nat, ignored: string): string {
    ToDecimal(width) + "x" + ToDecimal(height) + ignored
  }

  /** The header is a single plain line. */
  lemma HeaderIsPlain(width: nat, height: nat, ignored: string)
    requires ignored == [] || (ignored[0] == 'x' && PlainLine(ignored))
    ensures PlainLine(Header(width, height, ignored))
  {
    var header := Header(width, height, ignored);
    assert forall k :: 0 <= k < |header| ==> header[k] != '\n';
  }

  /** The first 'x'-separated part of `a + rest` is `a` when `a` has no 'x'
      and `rest` is empty or starts a new part. */
  lemma FirstPart(a: string, rest: string)
    requires forall k :: 0 <= k < |a| ==> a[k] != 'x'
    requires rest == [] || rest[0] == 'x'
    ensures var parts := Split(a + rest, 'x');
      parts[0] == a && (rest == [] <==> |parts| == 1)
  {
    if rest == [] {
      assert a + rest == a;
      SplitNone(a, 'x');
    } else {
      assert a + rest == a + ['x'] + rest[1..];
      SplitAt(a, 'x', rest[1..]);
    }
  }

  /** The first two 'x'-separated parts of `a + "x" + b + rest`. */
  lemma LeadingParts(a: string, b: string, rest: string)
    requires forall k :: 0 <= k < |a| ==> a[k] != 'x'
    requires forall k :: 0 <= k < |b| ==> b[k] != 'x'
    requires rest == [] || rest[0] == 'x'
    ensures var parts := Split(a + "x" + b + rest, 'x');
      |parts| >= 2 && parts[0] == a && parts[1] == b
  {
    assert a + "x" + b + rest == a + ['x'] + (b + rest);
    SplitAt(a, 'x', b + rest);
    FirstPart(b, rest);
  }

  /** The first two 'x'-separated parts of the header are the two numbers. */
  lemma HeaderParts(width: nat, height: nat, ignored: string)
    requires ignored == [] || ignored[0] == 'x'
    ensures var parts := Split(Header(width, height, ignored), 'x');
      |parts| >= 2 && parts[0] == ToDecimal(width) && parts[1] == ToDecimal(height)
  {
    DecimalHasNoX(width);
    DecimalHasNoX(height);
    LeadingParts(ToDecimal(width), ToDecimal(height), ignored);
  }

  /** With a header line naming the width and height, `load_from_string` reads
      the rest exactly as `load_from_stringmap` does at that size. */
  lemma LoadHeader(width: Usize, height: Usize, ignored: string, body: string)
    requires ignored == [] || (ignored[0] == 'x' && PlainLine(ignored))
    ensures LoadFromString(Header(width, height, ignored) + "\n" + body) ==
      LoadFromStringMap(body, width, height)
  {
    var header := Header(width, height, ignored);
    HeaderIsPlain(width, height, ignored);
    LinesCons(header, body);
    var lines := Lines(header + "\n" + body);
    assert lines[0] == header && lines[1..] == Lines(body);
    HeaderParts(width, height, ignored);
    ParseToDecimal(width);
    ParseToDecimal(height);
  }

  /** A whole map file written from a grid, header and all, loads back as that grid. */
  lemma FileRoundTrip(m: Map)
    requires Valid(m) && m.width >= 1 && m.height >= 1
    ensures LoadFromString(Header(m.width, m.height, "") + "\n" + Serialize(m)) == Success(Game(m))
  {
    LoadHeader(m.width, m.height, "", Serialize(m));
    SerializeRoundTrip(m);
  }

  /** A first line whose first 'x'-separated part is not a `usize` is
      reported as a bad number. */
  lemma LoadRejectsBadWidth(width: string, rest: string, body: string)
    requires PlainLine(width + rest)
    requires forall k :: 0 <= k < |width| ==> width[k] != 'x'
    requires rest == [] || rest[0] == 'x'
    requires ParseUsize(width).None?
    ensures LoadFromString(width + rest + "\n" + body) == Failure(BadNumber(width))
  {
    LinesCons(width + rest, body);
    FirstPart(width, rest);
  }

  /** A first line with a valid width and no 'x' has no height. */
  lemma LoadRejectsMissingHeight(width: string, body: string)
    requires PlainLine(width)
    requires forall k :: 0 <= k < |width| ==> width[k] != 'x'
    requires ParseUsize(width).Some?
    ensures LoadFromString(width + "\n" + body) == Failure(MissingHeight)
  {
    LinesCons(width, body);
    SplitNone(width, 'x');
  }

  /** A valid width followed by a second part that is not a `usize` is
      reported as a bad number. */
  lemma LoadRejectsBadHeight(width: string, height: string, rest: string, body: string)
    requires PlainLine(width + "x" + height + rest)
    requires forall k :: 0 <= k < |width| ==> width[k] != 'x'
    requires forall k :: 0 <= k < |height| ==> height[k] != 'x'
    requires rest == [] || rest[0] == 'x'
    requires ParseUsize(width).Some? && ParseUsize(height).None?
    ensures LoadFromString(width + "x" + height + rest + "\n" + body) == Failure(BadNumber(height))
  {
    LinesCons(width + "x" + height + rest, body);
    LeadingParts(width, height, rest);
  }

  /** The row loop stops at the first row past the height when the width is
      at least 1, and the offset it computes there, `width * height + x`, is
      below `usize::MAX`: the store fails for want of room, never by an
      overflowing product. Rows inside the height address the buffer itself. */
  lemma SurplusOffsetFits(width: Usize, height: Usize, x: nat)
    requires width * height <= ISIZE_MAX && x < width
    ensures Index(width, x, height) < USIZE_MAX
  {
    if height >= 1 {
      MulMonotone(1, height, width);
    }
  }
}

=== FILE: render.dfy ===
/** `Game::get_states_as_string`: the grid as text, one line per row, 'x'
    for a live cell and '.' for a dead one, with no line ending after the
    last row. */
module Render {
  import opened Grid
  import opened Text

  function Glyph(c: CellState): char {
    match c
    case Alive => 'x'
    case Dead => '.'
  }

  /** The characters of row `y`, left to right. */
  function RowText(m: Map, y: nat): (s: string)
    requires Valid(m) && y < m.height
    ensures |s| == m.width
    ensures forall x :: 0 <= x < m.width ==> s[x] == Glyph(Cell(m, x, y))
  {
    seq(m.width, x requires 0 <= x < m.width => Glyph(Cell(m, x, y)))
  }

  /** The rows of the grid, top to bottom. */
  function RowTexts(m: Map): (rows: seq<string>)
    requires Valid(m)
    ensures |rows| == m.height
    ensures forall y :: 0 <= y < m.height ==> rows[y] == RowText(m, y)
  {
    seq(m.height, y requires 0 <= y < m.height => RowText(m, y))
  }

  /** What the two loops push for rows `y` onwards: each row followed by "\n". */
  function Pushed(m: Map, y: nat): string
    requires Valid(m) && y <= m.height
    decreases m.height - y
  {
    if y == m.height then "" else RowText(m, y) + "\n" + Pushed(m, y + 1)
  }

  /** The pushed text is the rows from `y` joined by "\n", plus one final "\n". */
  lemma {:induction false} PushedIsJoin(m: Map, y: nat)
    requires Valid(m) && y < m.height
    ensures Pushed(m, y) == JoinWith(RowTexts(m)[y..], '\n') + "\n"
    decreases m.height - y
  {
    var rows := RowTexts(m)[y..];
    if y + 1 < m.height {
      PushedIsJoin(m, y + 1);
      assert rows[1..] == RowTexts(m)[y + 1..];
    }
  }

  /** Position in the text of column `x` of row `y` of a grid `w` cells wide;
      column `w` is the position of the row's line ending. */
  function Offset(w: nat, x: nat, y: nat): nat {
    Index(w + 1, x, y)
  }

  /** The rows' text without the final "\n" is the rows joined by "\n". */
  lemma DropFinalNewline(m: Map)
    requires Valid(m) && m.height >= 1
    ensures |Pushed(m, 0)| >= 1
    ensures Pushed(m, 0)[..|Pushed(m, 0)| - 1] == JoinWith(RowTexts(m), '\n')
  {
    PushedIsJoin(m, 0);
    assert RowTexts(m)[0..] == RowTexts(m);
  }

  /** `get_states_as_string`: every row with its "\n" pushed, then the buffer
      shortened by one character. The `height - 1` of the capacity computation
      is a `usize` subtraction, so the height must be at least 1. */
  function Serialize(m: Map): (s: string)
    requires Valid(m) && m.height >= 1
    ensures s == JoinWith(RowTexts(m), '\n')
    ensures |s| == m.width * m.height + (m.height - 1)
    ensures forall x: nat, y: nat :: InRange(m.width, m.height, x, y) ==>
      Offset(m.width, x, y) < |s| && s[Offset(m.width, x, y)] == Glyph(Cell(m, x, y))
    ensures forall y: nat :: y + 1 < m.height ==>
      Offset(m.width, m.width, y) < |s| && s[Offset(m.width, m.width, y)] == '\n'
  {
    var pushed := Pushed(m, 0);
    DropFinalNewline(m);
    TextLayout(m);
    pushed[..|pushed| - 1]
  }

  /** The joined rows of a grid, laid out cell by cell. */
  lemma TextLayout(m: Map)
    requires Valid(m) && m.height >= 1
    ensures var s := JoinWith(RowTexts(m), '\n');
      && |s| == m.width * m.height + (m.height - 1)
      && (forall x: nat, y: nat :: InRange(m.width, m.height, x, y) ==>
            Offset(m.width, x, y) < |s| && s[Offset(m.width, x, y)] == Glyph(Cell(m, x, y)))
      && (forall y: nat :: y + 1 < m.height ==>
            Offset(m.width, m.width, y) < |s| && s[Offset(m.width, m.width, y)] == '\n')
  {
    var rows := RowTexts(m);
    JoinLayout(rows, m.width);
    forall x: nat, y: nat | InRange(m.width, m.height, x, y)
      ensures rows[y][x] == Glyph(Cell(m, x, y))
    {
    }
  }

  /** Row `y + 1` starts one row and one line ending after row `y`. */
  lemma OffsetNextRow(w: nat, x: nat, y: nat)
    ensures Offset(w, x, y + 1) == (w + 1) + Offset(w, x, y)
  {
  }

  /** Rows of equal length `w` joined by "\n" take `w` characters each plus
      one per separator. */
  lemma {:induction false} JoinLength(rows: seq<string>, w: nat)
    requires |rows| >= 1
    requires forall y :: 0 <= y < |rows| ==> |rows[y]| == w
    ensures |JoinWith(rows, '\n')| == w * |rows| + (|rows| - 1)
    decreases |rows|
  {
    if |rows| > 1 {
      JoinLength(rows[1..], w);
    }
  }

  /** Column `x` of row `y` sits at `Offset(w, x, y)` of the joined text. */
  lemma {:induction false} JoinCharAt(rows: seq<string>, w: nat, x: nat, y: nat)
    requires forall k :: 0 <= k < |rows| ==> |rows[k]| == w
    requires x < w && y < |rows|
    ensures Offset(w, x, y) < |JoinWith(rows, '\n')|
    ensures JoinWith(rows, '\n')[Offset(w, x, y)] == rows[y][x]
    decreases y
  {
    if y == 0 {
      assert Offset(w, x, 0) == x;
    } else {
      JoinCharAt(rows[1..], w, x, y - 1);
      OffsetNextRow(w, x, y - 1);
      var tail := JoinWith(rows[1..], '\n');
      assert JoinWith(rows, '\n') == rows[0] + "\n" + tail;
      assert tail[Offset(w, x, y - 1)] == rows[y][x];
    }
  }

  /** Every row but the last is followed by "\n" at `Offset(w, w, y)`. */
  lemma {:induction false} JoinNewlineAt(rows: seq<string>, w: nat, y: nat)
    requires forall k :: 0 <= k < |rows| ==> |rows[k]| == w
    requires y + 1 < |rows|
    ensures Offset(w, w, y) < |JoinWith(rows, '\n')|
    ensures JoinWith(rows, '\n')[Offset(w, w, y)] == '\n'
    decreases y
  {
    if y == 0 {
      assert Offset(w, w, 0) == w;
    } else {
      JoinNewlineAt(rows[1..], w, y - 1);
      OffsetNextRow(w, w, y - 1);
      assert JoinWith(rows, '\n') == rows[0] + "\n" + JoinWith(rows[1..], '\n');
    }
  }

  /** The layout of rows of equal length `w` joined by "\n": row `y` starts at
      `y * (w + 1)` and is followed by "\n" unless it is the last. */
  lemma JoinLayout(rows: seq<string>, w: nat)
    requires |rows| >= 1
    requires forall y :: 0 <= y < |rows| ==> |rows[y]| == w
    ensures |JoinWith(rows, '\n')| == w * |rows| + (|rows| - 1)
    ensures forall x: nat, y: nat :: x < w && y < |rows| ==>
      Offset(w, x, y) < |JoinWith(rows, '\n')| && JoinWith(rows, '\n')[Offset(w, x, y)] == rows[y][x]
    ensures forall y: nat :: y + 1 < |rows| ==>
      Offset(w, w, y) < |JoinWith(rows, '\n')| && JoinWith(rows, '\n')[Offset(w, w, y)] == '\n'
  {
    JoinLength(rows, w);
    forall x: nat, y: nat | x < w && y < |rows|
      ensures Offset(w, x, y) < |JoinWith(rows, '\n')| && JoinWith(rows, '\n')[Offset(w, x, y)] == rows[y][x]
    {
      JoinCharAt(rows, w, x, y);
    }
    forall y: nat | y + 1 < |rows|
      ensures Offset(w, w, y) < |JoinWith(rows, '\n')| && JoinWith(rows, '\n')[Offset(w, w, y)] == '\n'
    {
      JoinNewlineAt(rows, w, y);
    }
  }
}

=== FILE: results.dfy ===
/** Failure-carrying values, standing for Rust's `Option` and for a `Result`
    whose error side also covers the panics of the parser. */
module Results {

  datatype Option<+T> = None | Some(value: T)

  datatype Result<+T, +E> = Success(value: T) | Failure(error: E)
}

=== FILE: text.dfy ===
/** The pieces of Rust's string handling that the map format relies on:
    `str::lines`, `str::split` on one character, and `str::len`, which counts
    UTF-8 bytes rather than characters.
 */
module Text {

  /** Position of the first `c` in `s`, or `|s|` when there is none. */
  function FirstIndex(s: string, c: char): (i: nat)
    ensures i <= |s|
    ensures i < |s| ==> s[i] == c
    ensures forall k :: 0 <= k < i ==> s[k] != c
  {
    if |s| == 0 then 0
    else if s[0] == c then 0
    else 1 + FirstIndex(s[1..], c)
  }

  /** The parts in order, with one `d` between each two consecutive ones. */
  function JoinWith(parts: seq<string>, d: char): string {
    if |parts| == 0 then ""
    else if |parts| == 1 then parts[0]
    else parts[0] + [d] + JoinWith(parts[1..], d)
  }

  /** `str::split(d)` collected into a vector: the text between consecutive
      occurrences of `d`, including the empty pieces. There is always at least
      one part, and no part contains `d`. */
  function Split(s: string, d: char): (parts: seq<string>)
    ensures |parts| >= 1
    ensures forall k, j :: 0 <= k < |parts| && 0 <= j < |parts[k]| ==> parts[k][j] != d
    decreases |s|
  {
    var i := FirstIndex(s, d);
    if i == |s| then [s]
    else [s[..i]] + Split(s[i + 1..], d)
  }

  /** Splitting loses nothing: joining the parts with `d` restores the text. */
  lemma {:induction false} SplitJoin(s: string, d: char)
    ensures JoinWith(Split(s, d), d) == s
    decreases |s|
  {
    var i := FirstIndex(s, d);
    if i < |s| {
      var rest := Split(s[i + 1..], d);
      SplitJoin(s[i + 1..], d);
      var parts := [s[..i]] + rest;
      assert Split(s, d) == parts;
      assert parts[1..] == rest;
      assert JoinWith(parts, d) == s[..i] + [d] + JoinWith(rest, d);
      assert s == s[..i] + [d] + s[i + 1..];
    }
  }

  /** Text with no `d` in it is a single part. */
  lemma SplitNone(s: string, d: char)
    requires forall k :: 0 <= k < |s| ==> s[k] != d
    ensures Split(s, d) == [s]
  {
    assert FirstIndex(s, d) == |s|;
  }

  /** `a + [d] + b` splits into `a` followed by the parts of `b` when `a` has no `d`. */
  lemma SplitAt(a: string, d: char, b: string)
    requires forall k :: 0 <= k < |a| ==> a[k] != d
    ensures Split(a + [d] + b, d) == [a] + Split(b, d)
  {
    var s := a + [d] + b;
    FirstIndexAt(a, d, b);
    assert s[..|a|] == a;
    assert s[|a| + 1..] == b;
  }

  lemma FirstIndexAt(a: string, c: char, b: string)
    requires forall k :: 0 <= k < |a| ==> a[k] != c
    ensures FirstIndex(a + [c] + b, c) == |a|
  {
    var s := a + [c] + b;
    assert forall k :: 0 <= k < |a| ==> s[k] == a[k];
    assert s[|a|] == c;
  }

  /** A line as `str::lines` yields it: a "\r" just before the "\n" that ends
      the line belongs to the line ending. */
  function StripCarriageReturn(line: string): string {
    if |line| > 0 && line[|line| - 1] == '\r' then line[..|line| - 1] else line
  }

  /** `str::lines`: the text split at each "\n" (or "\r\n"). A final line
      ending is optional and produces no empty last line, so "" has no lines
      and "a\n" has one. A "\r" not followed by "\n" stays in the line. */
  function Lines(s: string): (ls: seq<string>)
    ensures forall k, j :: 0 <= k < |ls| && 0 <= j < |ls[k]| ==> ls[k][j] != '\n'
    ensures |s| == 0 <==> |ls| == 0
    decreases |s|
  {
    if |s| == 0 then []
    else
      var i := FirstIndex(s, '\n');
      if i == |s| then [s]
      else [StripCarriageReturn(s[..i])] + Lines(s[i + 1..])
  }

  /** A line that can be recovered exactly: no line break and no trailing "\r". */
  predicate PlainLine(line: string) {
    (forall k :: 0 <= k < |line| ==> line[k] != '\n') &&
    (|line| == 0 || line[|line| - 1] != '\r')
  }

  /** The first line of `line + "\n" + rest` is `line`; the others are the lines of `rest`. */
  lemma LinesCons(line: string, rest: string)
    requires PlainLine(line)
    ensures Lines(line + "\n" + rest) == [line] + Lines(rest)
  {
    var s := line + "\n" + rest;
    FirstIndexAt(line, '\n', rest);
    assert s[..|line|] == line;
    assert s[|line| + 1..] == rest;
  }

  /** `str::lines` inverts joining with "\n", provided every line is plain and
      the last one is not empty (an empty last line would vanish). */
  lemma {:induction false} LinesOfJoin(rows: seq<string>)
    requires forall k :: 0 <= k < |rows| ==> PlainLine(rows[k])
    requires |rows| > 0 ==> |rows[|rows| - 1]| > 0
    ensures Lines(JoinWith(rows, '\n')) == rows
    decreases |rows|
  {
    if |rows| == 1 {
      var s := rows[0];
      assert FirstIndex(s, '\n') == |s|;
    } else if |rows| > 1 {
      LinesOfJoin(rows[1..]);
      LinesCons(rows[0], JoinWith(rows[1..], '\n'));
      assert [rows[0]] + rows[1..] == rows;
    }
  }

  /** The number of bytes UTF-8 needs for `c`. */
  function Utf8Length(c: char): (n: nat)
    ensures 1 <= n <= 4
    ensures n == 1 <==> c < 128 as char
  {
    if c as int < 0x80 then 1
    else if c as int < 0x800 then 2
    else if c as int < 0x1_0000 then 3
    else 4
  }

  /** `str::len`: the length of the UTF-8 encoding of `s`, in bytes. */
  function ByteLength(s: string): (n: nat)
    ensures n >= |s|
  {
    if |s| == 0 then 0 else Utf8Length(s[0]) + ByteLength(s[1..])
  }

  /** For ASCII text, bytes and characters coincide. */
  lemma {:induction false} ByteLengthAscii(s: string)
    requires forall k :: 0 <= k < |s| ==> s[k] < 128 as char
    ensures ByteLength(s) == |s|
  {
    if |s| > 0 {
      ByteLengthAscii(s[1..]);
    }
  }
}
